=== FILE: README.md ===
# Data Entry Pro, modelled in Dafny

Data Entry Pro is a PyQt desktop application that several people use to record contacts in one shared
sqlite database. This project models the decision logic of its core. That logic sits among the Qt widgets
and the sqlite calls, and it is modelled as immutable datatypes and pure functions:

- the input validators;
- the `DataEntry` record and its dictionary form;
- the `data_entries` table with its create, list, update, delete and count operations;
- the modification-time change detector and the sync handler that turns file events and poll ticks into
  `database_changed` notifications;
- the data viewer's search, count label, cell edits and bulk delete;
- the dashboard's period filter and the integer parts of its KPI cards;
- the entry form's save flow;
- the sidebar's highlight and collapse state;
- the construction and refresh dispatch of the full and the lite main window;
- the resolution of the database path.

Exceptions, file existence, modification times, the clock and the login name are parameters. A `fault`
flag stands for "this call raised". Timestamps are whole seconds.

| file | module | models |
|---|---|---|
| base.dfy | `Base` | `Option`, and `Result` (a value or the text of a raised exception) |
| text.dfy | `Text` | `str.strip`, `str.lower`, the `in` substring test, decimal rendering of counts |
| seqs.dfy | `Seqs` | list comprehension with `if`, subsequences, a stable sort on a key |
| validators.dfy | `Validators` | `utils/validators.py` |
| models.dfy | `Models` | `database/models.py` |
| store.dfy | `Store` | the CRUD part of `database/manager.py` over the schema of `database/models.py` |
| detector.dfy | `ChangeDetector` | `get_last_modified` / `has_database_changed` of `database/manager.py` |
| sync.dfy | `Sync` | `database/sync.py` |
| config.dfy | `Config` | `config/database.py` with the constants of `config/settings.py` |
| viewer.dfy | `Viewer` | `ui/data_viewer.py` |
| dashboard.dfy | `Dashboard` | `ui/dashboard.py` |
| entry_form.dfy | `EntryForm` | `ui/entry_form.py` |
| sidebar.dfy | `Sidebar` | `ui/sidebar.py` |
| windows.dfy | `Windows` | `ui/main_window.py` and `ui/main_window_lite.py` |

Some modelling choices:

- **The table.** It is a sequence of rows in rowid order plus `lastId`, the largest id AUTOINCREMENT has
  handed out. `Valid` says the ids increase strictly and never exceed `lastId`.
- **The viewer's shown rows.** `filtered_data` holds the same objects as `current_data`, so the model
  keeps it as positions into `current`. An edit made through a shown row is therefore visible in
  `current` too, exactly as the shared Python objects make it.
- **No deduplication between the two change channels.** The file watcher and the poll timer are not
  deduplicated. A file event does not move the poll baseline, so one modification can be signalled twice
  (`Sync.OneChangeSignalledTwice`). The model follows the code here.

## Model

| member | source | states |
|---|---|---|
| Text.Strip | utils/validators.py:39 | the result is a slice of the input with only whitespace before and after it; it is empty exactly when every character is whitespace, and otherwise neither starts nor ends with whitespace |
| Text.BlankIffStripEmpty | utils/validators.py:13 | `not s.strip()` holds exactly for the empty and all-whitespace strings |
| Text.StripIdempotent | utils/validators.py:39 | stripping twice is stripping once |
| Text.Lower | ui/data_viewer.py:301 | lower-casing keeps the length and maps each character on its own |
| Validators.ValidateEmail | utils/validators.py:11-20 | a blank email is valid; otherwise it is valid iff the input, or the input minus one final newline (Python's `$`), has the pattern's shape; the message is present iff invalid and is then "Invalid email format" |
| Validators.MatchEmailCorrect | utils/validators.py:16-17 | the one-pass scan (first `@`, last `.`) accepts exactly the strings that split as local part, `@`, domain, `.`, and at least two letters |
| Validators.EmailAcceptsTrailingNewline | utils/validators.py:16-18 | a plain address is accepted, and so is the same address with a trailing newline |
| Validators.EmailRejectsLeadingSpace | utils/validators.py:16-20 | the pattern sees the unstripped input, so a leading space makes the email invalid |
| Validators.DigitsOnly | utils/validators.py:29 | the result holds only digits and is a subsequence of the input; `DigitsOnlyKeepsEveryDigit` adds that no digit is dropped |
| Validators.DigitsOnlyKeepsEveryDigit | utils/validators.py:29 | every digit of the input is kept, exactly as often as it occurs |
| Validators.ValidatePhone | utils/validators.py:23-34 | a blank phone is valid; otherwise it is valid iff it holds at least 10 digits; the message is present iff invalid |
| Validators.PhoneIgnoresNonDigits | utils/validators.py:29-34 | inserting any non-digit character anywhere into a non-blank phone number leaves the verdict unchanged |
| Validators.ValidateName | utils/validators.py:37-50 | valid iff the stripped name has 2 to 100 characters, 100 included; lengths 0, 1 and over 100 each get their own message |
| Validators.NameIgnoresSurroundingSpace | utils/validators.py:39 | a name and its stripped form get the same verdict |
| Validators.ValidateRequiredField | utils/validators.py:53-57 | fails iff no character is non-whitespace, with the message field name + " is required" |
| Validators.MissingNameAgreement | utils/validators.py:41-42 | the name validator reports "Name is required" exactly when the required-field check on "Name" fails, and then both return the same verdict |
| Models.ParseStamp | database/models.py:48-49 | a missing, `None` or empty timestamp gives no time; ISO text gives its time; any other truthy value raises |
| Models.ToDict | database/models.py:22-35 | exactly the ten field keys, text fields as strings, and a timestamp key is `None` iff the timestamp is absent |
| Models.FromDict | database/models.py:37-51 | succeeds iff both timestamps parse; the id is the dictionary's int or `None`; each of the seven text fields is the dictionary's string or "" when missing; both timestamps are the parsed ones |
| Models.FromToDict | database/models.py:22-51 | `from_dict(to_dict(e)) == e` for every entry |
| Models.ToFromDict | database/models.py:22-51 | a dictionary with exactly the ten keys and well-formed timestamps survives `to_dict(from_dict(d))` |
| Models.FromEmptyDictIsDefault | database/models.py:11-20 | an empty dictionary gives the default `DataEntry` |
| Models.FromDictIgnoresExtraKeys | database/models.py:40-51 | keys other than the ten fields never influence the result |
| Models.FalsyStampIsAbsent | database/models.py:48-49 | a `None` or empty timestamp value reads as no timestamp |
| Store.CreateEntry | database/manager.py:53-67 | succeeds iff nothing raises and the id space is not exhausted; the new id exceeds every id in the table; one row is appended with the six fields, `created_by` and both timestamps at `now`; the table stays valid |
| Store.IdsNeverReused | database/models.py:57 | after a delete, the next id differs from every id the table held and exceeds the deleted one |
| Store.ListRows | database/manager.py:74-79 | a permutation of the table's rows ordered by `updated_at`, newest first |
| Store.GetAllEntries | database/manager.py:69-101 | `[]` on error; otherwise a permutation of the entries built from the table's rows (each row exactly once, as a multiset), newest update first |
| Store.EntriesPermutation | database/manager.py:83-98 | rows that are a permutation of each other build entries that are a permutation of each other, so sorting before building loses and duplicates nothing |
| Store.UpdateEntry | database/manager.py:103-118 | true iff nothing raises and a row has the entry's id; that row gets the six fields and `updated_at = now`, and every other field and row is untouched |
| Store.TimesStayOrdered | database/models.py:75-80 | `created_at <= updated_at` survives create and update while the clock does not run back |
| Store.DeleteEntry | database/manager.py:120-130 | true iff a row with the id exists; exactly that id disappears, every other row stays, and nothing is added |
| Store.GetEntryCount | database/manager.py:132-141 | the number of rows, or 0 on error |
| Store.CountMatchesListing | database/manager.py:132-141 | the count equals the length of the listing for the same table and error |
| Store.LaterUpdateListedFirst | database/manager.py:78 | of two rows, the one updated later is listed first |
| Store.ScenarioCreate | database/manager.py:53-101 | two creates on an empty table hand out ids 1 and 2, and the newer entry is listed first |
| Store.ScenarioUpdateDelete | database/manager.py:103-141 | updating the older entry moves it to the front; deleting the other leaves it alone, with count 1 |
| ChangeDetector.GetLastModified | database/manager.py:30-38 | the mtime iff the file exists and can be read, else `None` |
| ChangeDetector.HasChanged | database/manager.py:40-51 | with no baseline it reports a change; otherwise it reports one iff the mtime differs; the baseline moves only on a report |
| ChangeDetector.FirstCheckReportsChange | database/manager.py:43-45 | the first check reports a change and stores the observation |
| ChangeDetector.MissingFileAlwaysChanged | database/manager.py:32-45 | while the file is missing, every check reports a change |
| ChangeDetector.StableFileQuiet | database/manager.py:47-51 | once an mtime is the baseline, checks that see it again report nothing |
| ChangeDetector.ChangeReportedOnce | database/manager.py:40-51 | a new mtime is reported on the first check after it and never again |
| Sync.Setup | database/sync.py:25-49 | a no-op while monitoring; on success it watches the database path if the file exists, runs a repeating 30000 ms timer and sets `monitoring`; a raise leaves `monitoring` and the timer as they were |
| Sync.NewHandler | database/sync.py:15-23 | monitoring iff setup did not raise; nothing emitted yet; a raise while building the watcher leaves neither watcher nor timer |
| Sync.OnFileChanged | database/sync.py:51-61 | an event for the database path emits once and re-adds the path to an empty watcher; any other path changes nothing |
| Sync.PollTick | database/sync.py:63-69 | emits iff the change detector reports a change, and advances its baseline |
| Sync.StartMonitoring | database/sync.py:71-74 | a no-op while monitoring, otherwise one setup attempt |
| Sync.StopMonitoring | database/sync.py:76-86 | afterwards nothing is monitored, the timer is inactive and nothing is watched, whether or not a watcher or timer exists |
| Sync.RefreshFilePath | database/sync.py:88-102 | a no-op without a watcher; otherwise the watcher holds exactly the database path if the file exists |
| Sync.RefreshAfterSetupChangesNothing | database/sync.py:88-102 | right after a successful setup, a refresh leaves the handler as it was |
| Sync.RefreshIdempotent | database/sync.py:88-102 | refreshing twice is refreshing once |
| Sync.RefreshAfterStopRewatches | database/sync.py:76-102 | `stop_monitoring` keeps the watcher, so a later refresh watches the file again while the handler is not monitoring |
| Sync.StartIdempotent | database/sync.py:71-74 | a second start after a successful one changes nothing |
| Sync.StopIdempotent | database/sync.py:76-86 | stopping twice is stopping once |
| Sync.FailedSetupRecovers | database/sync.py:47-49 | a handler whose setup raised is not monitoring, and a later start can succeed |
| Sync.WatchReRegistered | database/sync.py:56-59 | after the watcher lost the file, an event for it re-registers the database path |
| Sync.OneChangeSignalledTwice | database/sync.py:51-67 | one modification is signalled by the file event and again by the next poll |
| Sync.PollSignalsChangeOnce | database/sync.py:63-67 | through polling alone, a change is signalled on one tick and not on the next |
| Config.Join | config/database.py:18 | `os.path.join` with a plain file name: the result starts with the folder and ends with the name, with one separator between them when needed |
| Config.DatabasePath | config/database.py:15-21 | when the shared folder exists, the folder, the host's separator (backslash on Windows, slash elsewhere) and the file name; otherwise the bare file name |
| Config.SharedIffFolderExists | config/database.py:29-32 | `is_shared` holds exactly when the shared folder was found |
| Config.WindowsSharedPath | config/database.py:17-18 | on Windows the shared database is the folder, a backslash and the file name |
| Viewer.RefreshData | ui/data_viewer.py:242-253 | a no-op while an edit is in progress; otherwise it reloads every entry and shows all of them |
| Viewer.NewViewer | ui/data_viewer.py:114-123 | a new viewer shows everything the store lists |
| Viewer.FilterData | ui/data_viewer.py:296-313 | a blank query shows every entry; otherwise an entry is shown iff the lower-cased query occurs in one of its six lower-cased text fields |
| Viewer.HitsFromExact | ui/data_viewer.py:302-310 | the positions found are exactly those whose entry passes the test, each once, in increasing order |
| Viewer.HitsAgreeWithFilter | ui/data_viewer.py:302-310 | the entries at the positions found are the list the comprehension keeps |
| Viewer.FilterIsComprehension | ui/data_viewer.py:302-310 | a non-blank search shows `[e for e in current_data if hit(e)]`, same entries, same order |
| Viewer.SearchIgnoresQueryCase | ui/data_viewer.py:301 | a query and its lower-case form show the same rows |
| Viewer.RefreshDropsFilter | ui/data_viewer.py:248-249 | a reload after a search shows every entry again |
| Viewer.CountLabel | ui/data_viewer.py:315-323 | the label reads back: its leading numeral is the number shown, without leading zeros; " of " follows it iff some records are hidden; when none are hidden, exactly " records" follows it; it ends in " records" |
| Viewer.CountLabelReadsBack | ui/data_viewer.py:321-323 | when records are hidden, the numeral after " of " reads back as the total, has no leading zeros and is followed by exactly " records" |
| Viewer.ReloadedLabel | ui/data_viewer.py:242-253 | after a reload the label reads "N records", with N the store's row count |
| Viewer.CellText | ui/data_viewer.py:264-291 | the id cell reads back as the id, with a minus sign when negative, or is "None"; each editable cell holds the field an edit of that column sets; columns 7 and 8 show the formatted creation and update times, or "" when missing; column 9 is the author |
| Viewer.IdText | ui/data_viewer.py:264 | `str(entry.id)` reads back as the id: digits only for a non-negative id, a minus sign and the digits of its magnitude for a negative one, "None" when absent |
| Viewer.PopulateTable | ui/data_viewer.py:255-294 | one row per shown entry, row k holding the ten cells of the k-th shown entry |
| Viewer.SetColumn | ui/data_viewer.py:337-349 | columns 1 to 6 set name, email, phone, company, position and notes respectively, and every other field keeps its value; any other column changes nothing |
| Viewer.EditChangesOneCell | ui/data_viewer.py:337-349 | an edit changes exactly the edited cell of its row; every other cell reads as before |
| Viewer.TableEditChangesOneCell | ui/data_viewer.py:255-349 | editing the entry behind one shown row changes exactly one cell of the repopulated table, which then reads the typed text |
| Viewer.CellEditRoundTrip | ui/data_viewer.py:264-270 | an editable cell shows what was typed into it, and typing back what it shows changes nothing |
| Viewer.OnCellChanged | ui/data_viewer.py:325-369 | as written: calls during an edit or on column 0 are ignored; otherwise the shared entry is changed in place, written to the store, the signal fires iff the store accepted it, the viewer is not reloaded, and the edit flag ends cleared |
| Viewer.FailedEditNotReverted | ui/data_viewer.py:354-366 | a failed write leaves the store unchanged but the viewer showing the typed value, out of step with the store |
| Viewer.OnCellChangedReloading | ui/data_viewer.py:325-369 | corrected: the same store write and signal, then a reload after the flag is cleared, so the viewer shows the store's state |
| Viewer.ReloadingEditStaysInStep | ui/data_viewer.py:354-366 | with the corrected handler, a viewer in step with the store stays in step after any edit, failed or not |
| Viewer.DeleteRow | ui/data_viewer.py:392-394 | one visit deletes the shown entry's id if its row is selected and the call succeeds, and nothing else |
| Viewer.DeleteRows | ui/data_viewer.py:390-394 | the deletion loop removes exactly the ids of the selected rows whose deletes succeed, and counts the rows removed |
| Viewer.DeleteSelected | ui/data_viewer.py:376-406 | `deleted` is the number of rows removed; the signal fires iff it is positive; a selected row past the end deletes nothing and reloads; otherwise exactly the selected entries' ids go; a reload happens only after a deletion |
| Dashboard.PeriodDays | ui/dashboard.py:344-352 | 7, 30 and 90 days for the three windows, none for "All Time" or any other text |
| Seqs.Filter | ui/dashboard.py:355-358 | `[x for x in s if p(x)]`: no longer than the input, only elements of the input that pass, every passing element present |
| Seqs.FilterMultiplicity | ui/dashboard.py:355-358 | the filter's multiset is contained in the input's, and each passing element is kept exactly as often as it occurs in the input |
| Dashboard.FilterByPeriod | ui/dashboard.py:336-360 | all data for "All Time" and unknown periods; otherwise exactly the entries created at or after the cutoff, in order |
| Dashboard.LongerPeriodKeepsMore | ui/dashboard.py:355-358 | an earlier cutoff never keeps fewer entries |
| Dashboard.PeriodsNested | ui/dashboard.py:336-360 | the 7-, 30-, 90-day and all-time selections show non-decreasing numbers of entries |
| Dashboard.Oldest | ui/dashboard.py:372 | the minimum creation time over the entries that have one, absent iff none has one |
| Dashboard.DayDivisor | ui/dashboard.py:373 | at least 1, and the whole number of days elapsed once that is 2 or more |
| Dashboard.Companies | ui/dashboard.py:379 | the non-blank companies: each non-blank company occurs exactly as often as entries name it, blank ones never; the length is the number of entries with a non-blank company; empty iff every company is blank |
| Dashboard.MostFrequentFrom | ui/dashboard.py:381-382 | an element of the list whose count no other element exceeds |
| Dashboard.TopCompany | ui/dashboard.py:379-384 | "N/A" when no company is non-blank; otherwise a non-blank company that at least one entry names and that no other non-blank company is named by more entries than |
| Dashboard.TruncateLabel | ui/dashboard.py:390 | short names are kept; longer ones become their first 15 characters and "..." |
| Dashboard.TruncateLabelBounded | ui/dashboard.py:390 | the label has at most 18 characters, and a label of 15 or fewer is a fixed point |
| Dashboard.UpdateKpis | ui/dashboard.py:362-390 | computed on the full data: the total, the 7-day count, the day divisor `max(1, days since the oldest entry)` (none for no data), the top company; `min()` of nothing raises exactly when there is data but no creation time |
| Dashboard.KpisIgnorePeriod | ui/dashboard.py:364-368 | the cards are the same whichever period is selected |
| Dashboard.RecentAtMostTotal | ui/dashboard.py:364-368 | the recent count never exceeds the total |
| Dashboard.RefreshKpis | ui/dashboard.py:316-334 | the cards of the whole list whatever period is selected; with no entries (or a failed read) they show 0, 0 and "N/A" |
| EntryForm.FormEntry | ui/entry_form.py:269-277 | the entry holds every input stripped and the login as author, with no id and no timestamps |
| EntryForm.SaveEntry | ui/entry_form.py:259-290 | a blank name saves nothing and leaves the form; a save happens iff the name is non-blank, the login is known, and the store accepts; then the form is cleared, the signal fires, and the new row holds the stripped inputs under a fresh id; otherwise form and table are unchanged |
| EntryForm.Submit | ui/entry_form.py:280-290 | the store call: on success a fresh id, a cleared form and the signal; on a raise the form and table as they were |
| EntryForm.ClearForm | ui/entry_form.py:292-299 | all six inputs empty |
| EntryForm.NameCheckIsRequiredField | ui/entry_form.py:262-265 | the form refuses exactly the names the required-field validator refuses |
| EntryForm.EmailNotValidated | ui/entry_form.py:259-290 | the email never decides whether a save succeeds |
| EntryForm.SecondSaveRefused | ui/entry_form.py:262-285 | after a save, saving again finds a blank name and stores nothing |
| Sidebar.NewButton | ui/sidebar.py:14-25 | a new button shows its full caption and is not highlighted |
| Sidebar.SetActive | ui/sidebar.py:60-63 | sets the highlight and nothing else |
| Sidebar.SetCollapsed | ui/sidebar.py:65-70 | the icon alone when collapsed, the full caption otherwise |
| Sidebar.SetActiveButton | ui/sidebar.py:152-155 | the entry button is lit iff the name is "entry", the viewer button iff it is "viewer" |
| Sidebar.NewSidebar | ui/sidebar.py:80-128 | starts expanded at 250, header shown, entry button lit, toggle reading "◀ Collapse" |
| Sidebar.ToggleSidebar | ui/sidebar.py:157-179 | flips collapsed; the arrow, header, button captions and target width all follow it, and the highlight is kept |
| Sidebar.OnEntryClicked | ui/sidebar.py:142-145 | lights the entry button, then requests the entry form |
| Sidebar.OnViewerClicked | ui/sidebar.py:147-150 | lights the viewer button, then requests the data viewer |
| Sidebar.DashboardDeactivatesBoth | ui/sidebar.py:152-155 | asking for "dashboard" leaves no button lit |
| Sidebar.ToggleTwiceRestores | ui/sidebar.py:157-179 | two toggles restore the collapsed flag, and restore the whole sidebar once it is settled |
| Sidebar.Toggles | ui/sidebar.py:159 | after n toggles the sidebar is collapsed iff n is odd (from expanded) |
| Sidebar.CollapseCaptionNeverReturns | ui/sidebar.py:157-179 | after any toggle the toggle button shows a lone arrow, never "◀ Collapse" again, and the entry button stays lit |
| Windows.ShowDashboard | ui/main_window.py:115-120 | the dashboard becomes current and is the only page reloaded; no sidebar button stays lit |
| Windows.ShowEntryForm | ui/main_window.py:122-126 | the form becomes current, nothing reloads, the entry button is lit |
| Windows.ShowDataViewer | ui/main_window.py:128-133 | the viewer becomes current and is the only page reloaded |
| Windows.OnRequest | ui/main_window.py:77-78 | a request for the form makes it current and reloads nothing; a request for the viewer makes it current and reloads it alone; the sync handler is untouched |
| Windows.OnDatabaseChanged | ui/main_window.py:135-145 | reloads the current page if it is the viewer or the dashboard, and nothing else |
| Windows.OnEntrySaved | ui/main_window.py:147-153 | reloads both the dashboard and the viewer |
| Windows.OnEntryUpdated | ui/main_window.py:155-159 | reloads only the dashboard |
| Windows.OnEntryDeleted | ui/main_window.py:161-165 | reloads only the dashboard |
| Windows.SetupSyncHandler | ui/main_window.py:90-98 | a failed construction leaves no handler; otherwise a fresh handler, monitoring iff its setup succeeded |
| Windows.CloseEvent | ui/main_window.py:171-175 | stops monitoring iff a handler exists, leaving nothing watched and no timer running |
| Windows.MainInitial | ui/main_window.py:31-35 | the constructor's closing `show_dashboard` makes the dashboard current and reloads it; a handler exists iff its construction succeeded |
| Windows.OnDashboardTimer | ui/dashboard.py:148-151 | the dashboard's one-minute timer reloads the dashboard alone, whichever page is current |
| Windows.MissingSignal | ui/main_window.py:74-77 | names the first connected signal the sidebar does not declare, and is absent iff every one is declared |
| Windows.MainConstruct | ui/main_window.py:20-35 | raises iff a connected sidebar signal is undeclared; otherwise the window opens on the dashboard, which has loaded twice (its constructor and `show_dashboard`), with the viewer loaded once and the form never |
| Windows.MainWindowAsWrittenRaises | ui/main_window.py:76 | as written, constructing the main window raises |
| Windows.MainWindowCorrectedStarts | ui/main_window.py:20-35 | without the undeclared connection the main window is built and ends as `MainInitial` states |
| Windows.EntryFormNeverReloaded | ui/main_window.py:115-165 | no handler ever reloads the entry form |
| Windows.ExternalChangeReloadsLess | ui/main_window.py:135-153 | a change made elsewhere reloads at most one page, and never more than a local save does |
| Windows.ViewerNotReloadedAfterEdit | ui/main_window.py:155-165 | an edit or deletion signal does not reload the viewer |
| Windows.CloseIdempotent | ui/main_window.py:171-175 | closing twice is closing once |
| Windows.LiteShowDashboard | ui/main_window_lite.py:113-119 | the dashboard becomes current and reloads |
| Windows.LiteShowEntryForm | ui/main_window_lite.py:121-125 | the form becomes current, nothing reloads, the entry button is lit |
| Windows.LiteShowDataViewer | ui/main_window_lite.py:127-132 | the viewer becomes current and reloads |
| Windows.LiteManualRefresh | ui/main_window_lite.py:134-140 | reloads the viewer iff it is current, otherwise nothing |
| Windows.LiteOnEntrySaved | ui/main_window_lite.py:142-149 | reloads both data pages |
| Windows.LiteOnEntryUpdated | ui/main_window_lite.py:151-156 | reloads only the dashboard |
| Windows.LiteOnEntryDeleted | ui/main_window_lite.py:158-163 | reloads only the dashboard |
| Windows.LiteInitial | ui/main_window_lite.py:28 | the constructor's closing `show_entry_form` makes the form current, expanded, with the entry button lit, and reloads nothing |
| Windows.LiteConstruct | ui/main_window_lite.py:18-28 | raises iff a connected sidebar signal is undeclared; otherwise the window opens on the entry form with the dashboard and the viewer each loaded once, by their constructors |
| Windows.LiteWindowAsWrittenRaises | ui/main_window_lite.py:87 | as written, constructing the lite window raises |
| Windows.LiteWindowCorrectedStarts | ui/main_window_lite.py:18-28 | without the undeclared connection the lite window is built and ends as `LiteInitial` states |
| Windows.LiteAgreesWithMain | ui/main_window_lite.py:113-163 | navigation and the form and viewer signals reload the same pages as in the main window |
| Windows.ManualRefreshVersusNotice | ui/main_window_lite.py:134-140 | a manual refresh reloads what a change notice would in the main window, except on the dashboard |

## Left out

- SQL execution, connections, `initialize_database` and `CREATE TABLE`: the table is abstract. `datetime.fromisoformat` is replaced by abstract timestamp values. `app_metadata` is unused and not modelled.
- Exceptions are boolean parameters (`fault`, `readFault`, `constructionFails`, `SetupFault`), not raised.
- The clock (`datetime.now`, `CURRENT_TIMESTAMP`), `os.path.exists`, `os.path.getmtime` and `os.getlogin` are parameters. sqlite's `CURRENT_TIMESTAMP` is UTC and `datetime.now()` is local time; the model puts both on one time scale.
- Widget construction, layouts, styles, message boxes, status-bar texts, charts (matplotlib, seaborn, pandas) and `KPICard`/`ChartWidget` are rendering.
- Floating point: the daily average `total / days` and its `.1f` formatting. Only the divisor is modelled.
- `strftime("%Y-%m-%d %H:%M")` is the parameter `stamp` of `Viewer.CellText`.
- Text.Strip: whitespace is the ASCII part of `str.isspace`; non-ASCII spaces such as U+00A0 or U+2003 are kept where Python strips them, and this carries over to `IsBlank` and so to the name, required-field and email checks.
- Text.Lower: ASCII only; Python's `str.lower`, `str.isspace` and `\D` consult Unicode, which is not modelled.
- Validators.ValidatePhone: digits are ASCII `0`-`9`; Unicode decimal digits that `\D` also excludes are not modelled.
- Dashboard.TopCompany: any company of maximal count; which one pandas `value_counts` puts first among ties is not modelled.
- Viewer.OnCellChanged: the row index is taken as a position in `filtered_data`. Qt may have re-sorted the table by a header click, so the index could name another entry; that is not modelled.
- Viewer.DeleteSelected: only the exception of an out-of-range row, which is the first one visited, is modelled.
- The `on_selection_changed` enabling of the delete button is left out, as widget state.
- Sidebar.ToggleSidebar: the width animation is reduced to its end value for `minimumWidth`; the animation's timing, and how it interacts with `setFixedWidth`, are not modelled.
- Config.Join: only plain file names without separators or drive letters are joined, which is what `DATABASE_PATH` is.
- The database path is resolved once, when `DatabaseConfig` is built; the model passes the resolved path around as a value.
- The connections of the form, viewer and dashboard signals are not modelled as a lookup; only the sidebar's three are (Windows.MainConstruct, Windows.LiteConstruct). The handlers are modelled one by one.
- Windows.OnDashboardTimer: the timer's period is recorded, but the timing itself is not modelled. It is a reload event that can come at any time.
- Models.FromDict: the dictionary is required to hold an int or `None` under `id` and strings under the text keys (`FieldsTyped`). Python's `data.get` would pass any other value through unchanged; no caller in the application builds such a dictionary.
- EntryForm.SaveEntry: the "Failed to save entry!" branch for a falsy id is modelled, but it cannot occur, since AUTOINCREMENT ids start at 1. Its contract states that no save ends in it.
- `on_dashboard_refresh` only shows a status message, so it is not modelled.
- `utils/file_watcher.py` is not part of this model: nothing in the core uses it. The start-up scripts `main.py`, `main_lite.py` and `main_debug.py` are not part of this model either.
- `__del__` of the sync handler (it calls `stop_monitoring`) is not modelled: Python's object finalisation is outside the model.

## Findings

| source | as written | input that shows it | evidently intended | confidence | as-written member | corrected member |
|---|---|---|---|---|---|---|
| ui/data_viewer.py:354-366 | `on_cell_changed` sets `_updating = True` and then calls `refresh_data()` to reload after a write, or to "revert changes" after a failed one. But `refresh_data` returns at once while `_updating` is set, so neither call does anything. | A viewer in step with the store, an edit of row 0, column 1 to a new name, and `update_entry` failing. The store keeps the old name while the viewer keeps showing the new one. | The reload or revert runs, so after every edit the viewer shows what the store holds. | not executed | Viewer.OnCellChanged, Viewer.FailedEditNotReverted | Viewer.OnCellChangedReloading, Viewer.ReloadingEditStaysInStep |
| ui/main_window.py:76 | `setup_connections` connects `self.sidebar.dashboard_requested`, but `ModernSidebar` declares only `entry_form_requested` and `data_viewer_requested` (ui/sidebar.py:77-78). The lookup raises `AttributeError`, so `MainWindow()` never returns. | Constructing `MainWindow()` against any database. | Connect only the signals the sidebar declares, so the window opens on the dashboard. | not executed | Windows.MainConstruct, Windows.MainWindowAsWrittenRaises | Windows.MainWindowCorrectedStarts |
| ui/main_window_lite.py:87 | The lite window makes the same connection, so `MainWindowLite()` raises `AttributeError` too. | Constructing `MainWindowLite()` against any database. | Connect only the declared signals, so the window opens on the entry form. | not executed | Windows.LiteConstruct, Windows.LiteWindowAsWrittenRaises | Windows.LiteWindowCorrectedStarts |

=== FILE: base.dfy ===
/** Small shared datatypes: Python's `Optional[...]` and an outcome that
    carries either a value or the text of the exception that was raised. */
module Base {

  /** `None` or a present value, as Python's `Optional`. */
  datatype Option<+T> = None | Some(value: T) {
    function GetOr(default: T): T {
      match this
      case Some(v) => v
      case None => default
    }
  }

  /** A computation that either produced a value or raised. */
  datatype Result<+T> = Ok(value: T) | Err(error: string)
}

=== FILE: config.dfy ===
/** `DatabaseConfig` of `config/database.py` with the two path constants of
    `config/settings.py`. Whether the shared folder exists is supplied by the caller,
    and so is the path flavour `os.path` follows on the host. */
module Config {
  import opened Text

  /** `DATABASE_PATH`. */
  const DatabaseFile := "shared_database.db"
  /** `SHARED_FOLDER_PATH`, the UNC path `\\server\shared\database`. */
  const SharedFolder := "\\\\server\\shared\\database"

  /** `ntpath` on Windows, `posixpath` elsewhere. */
  datatype Flavor = Windows | Posix

  predicate IsSep(f: Flavor, c: char) {
    c == '/' || (f == Windows && c == '\\')
  }

  /** A relative file name with no directory part and no drive: what `DATABASE_PATH` is. */
  predicate IsPlainName(f: Flavor, b: string) {
    b != [] && (forall k :: 0 <= k < |b| ==> !IsSep(f, b[k]) && b[k] != ':')
  }

  /** `os.path.join(a, b)` for a plain name `b`: `b` when `a` is empty, glued on when
      `a` already ends in a separator (or, on Windows, is a bare drive `X:`), and
      otherwise joined with the flavour's separator. */
  function Join(f: Flavor, a: string, b: string): (r: string)
    requires IsPlainName(f, b)
    ensures |r| >= |a| + |b| && r[|r| - |b|..] == b && r[..|a|] == a
    ensures a == [] ==> r == b
    ensures a != [] && !IsSep(f, a[|a| - 1]) && !(f == Windows && |a| == 2 && a[1] == ':') ==>
      r == a + [if f == Windows then '\\' else '/'] + b
  {
    if a == [] then b
    else if IsSep(f, a[|a| - 1]) || (f == Windows && |a| == 2 && a[1] == ':') then a + b
    else a + [if f == Windows then '\\' else '/'] + b
  }

  /** `DatabaseConfig._get_database_path`. */
  function DatabasePath(f: Flavor, sharedExists: bool): (r: string)
    ensures sharedExists ==> StartsWith(r, SharedFolder) && |r| > |SharedFolder| + |DatabaseFile|
    ensures sharedExists ==> r == SharedFolder + [if f == Windows then '\\' else '/'] + DatabaseFile
    ensures !sharedExists ==> r == DatabaseFile
  {
    if sharedExists then Join(f, SharedFolder, DatabaseFile) else DatabaseFile
  }

  /** `DatabaseConfig.is_shared`: the shared folder's path occurs in the database path. */
  predicate IsShared(path: string) {
    Contains(path, SharedFolder)
  }

  /** A needle longer than the haystack never occurs in it. */
  lemma LongNeedleAbsent(hay: string, needle: string)
    requires |needle| > |hay|
    ensures !Contains(hay, needle)
  {
    ContainsIffOccurs(hay, needle);
  }

  /** The database counts as shared exactly when the shared folder was found. */
  lemma SharedIffFolderExists(f: Flavor, sharedExists: bool)
    ensures IsShared(DatabasePath(f, sharedExists)) <==> sharedExists
  {
    var p := DatabasePath(f, sharedExists);
    if sharedExists {
      ContainsInfix([], SharedFolder, p[|SharedFolder|..]);
      assert [] + SharedFolder + p[|SharedFolder|..] == p;
    } else {
      LongNeedleAbsent(DatabaseFile, SharedFolder);
    }
  }

  /** On Windows the shared database sits directly inside the shared folder. */
  lemma WindowsSharedPath()
    ensures DatabasePath(Windows, true) == SharedFolder + "\\" + DatabaseFile
  {
  }
}

=== FILE: dashboard.dfy ===
/** The decision logic of the `Dashboard` in `ui/dashboard.py`: the period filter
    and the integer parts of the KPI cards. `now` is the clock reading the code takes
    with `datetime.now()`, in the same seconds as the entries' timestamps. */
module Dashboard {
  import opened Base
  import opened Text
  import opened Models
  import Seqs

  const SecondsPerDay := 86400

  const Week := "Last 7 Days"
  const Month := "Last 30 Days"
  const Quarter := "Last 90 Days"
  const AllTime := "All Time"

  /** The items of the period selector; the selector starts on the 30-day period. */
  const PeriodChoices := [Week, Month, Quarter, AllTime]
  const DefaultPeriod := Month

  /** The window length, in days, of a period with a cutoff; `None` for "All Time" or
      any other text. */
  function PeriodDays(period: string): (r: Option<nat>)
    ensures r.Some? <==> period in {Week, Month, Quarter}
    ensures period == Week ==> r == Some(7)
    ensures period == Month ==> r == Some(30)
    ensures period == Quarter ==> r == Some(90)
  {
    if period == Week then Some(7)
    else if period == Month then Some(30)
    else if period == Quarter then Some(90)
    else None
  }

  /** `entry.created_at and entry.created_at >= cutoff`. */
  predicate CreatedSince(e: Entry, cutoff: int) {
    e.createdAt.Some? && e.createdAt.value >= cutoff
  }

  function Since(cutoff: int): Entry -> bool {
    e => CreatedSince(e, cutoff)
  }

  function Cutoff(now: int, days: nat): int {
    now - days * SecondsPerDay
  }

  /** `filter_data_by_period`: all data for "All Time" and unknown periods, otherwise
      the entries created at or after the cutoff, kept in order. */
  function FilterByPeriod(data: seq<Entry>, period: string, now: int): (r: seq<Entry>)
    ensures PeriodDays(period).None? ==> r == data
    ensures Seqs.IsSubsequence(r, data)
    ensures PeriodDays(period).Some? ==>
      var cutoff := Cutoff(now, PeriodDays(period).value);
      && (forall k :: 0 <= k < |r| ==> CreatedSince(r[k], cutoff))
      && (forall k :: 0 <= k < |data| && CreatedSince(data[k], cutoff) ==> data[k] in r)
  {
    match PeriodDays(period)
    case None =>
      Seqs.SubsequenceOfItself(data);
      data
    case Some(days) =>
      Seqs.FilterIsSubsequence(data, Since(Cutoff(now, days)));
      Seqs.Filter(data, Since(Cutoff(now, days)))
  }

  /** A longer period never shows fewer entries: the 7-day window's entries are all
      in the 30-day window's, and those in the 90-day window's. */
  lemma {:induction false} LongerPeriodKeepsMore(data: seq<Entry>, c1: int, c2: int)
    requires c2 <= c1
    ensures |Seqs.Filter(data, Since(c1))| <= |Seqs.Filter(data, Since(c2))|
    decreases |data|
  {
    if data != [] {
      LongerPeriodKeepsMore(data[1..], c1, c2);
    }
  }

  lemma PeriodsNested(data: seq<Entry>, now: int)
    ensures |FilterByPeriod(data, Week, now)| <= |FilterByPeriod(data, Month, now)|
    ensures |FilterByPeriod(data, Month, now)| <= |FilterByPeriod(data, Quarter, now)|
    ensures |FilterByPeriod(data, Quarter, now)| <= |FilterByPeriod(data, AllTime, now)|
  {
    LongerPeriodKeepsMore(data, Cutoff(now, 7), Cutoff(now, 30));
    LongerPeriodKeepsMore(data, Cutoff(now, 30), Cutoff(now, 90));
  }

  // ---------------------------------------------------------------------
  // KPIs
  // ---------------------------------------------------------------------

  /** The integer content of the four cards. `dayDivisor` is the divisor of the daily
      average, `None` when there are no entries (the average is then 0). */
  datatype Kpis = Kpis(total: nat, recent: nat, dayDivisor: Option<int>, topCompany: string)

  const NoCompany := "N/A"
  const LabelWidth := 15

  /** The earliest creation time among the entries that have one. */
  function Oldest(data: seq<Entry>): (r: Option<int>)
    ensures r.None? <==> forall k :: 0 <= k < |data| ==> data[k].createdAt.None?
    ensures r.Some? ==> exists k :: 0 <= k < |data| && data[k].createdAt == r
    ensures r.Some? ==> forall k :: 0 <= k < |data| && data[k].createdAt.Some? ==>
      r.value <= data[k].createdAt.value
    decreases |data|
  {
    if data == [] then None
    else
      var rest := Oldest(data[1..]);
      var here := data[0].createdAt;
      if here.None? then
        assert forall k :: 1 <= k < |data| ==> data[k] == data[1..][k - 1];
        rest
      else if rest.None? || here.value <= rest.value then
        assert forall k :: 1 <= k < |data| ==> data[k] == data[1..][k - 1];
        here
      else
        assert forall k :: 1 <= k < |data| ==> data[k] == data[1..][k - 1];
        var j :| 0 <= j < |data[1..]| && data[1..][j].createdAt == rest;
        assert data[j + 1].createdAt == rest;
        rest
  }

  /** `max(1, (now - oldest).days)`; `timedelta.days` rounds down, as `/` does for a
      positive divisor. */
  function DayDivisor(now: int, oldest: int): (r: int)
    ensures r >= 1
    ensures now - oldest >= 2 * SecondsPerDay ==> r * SecondsPerDay <= now - oldest < (r + 1) * SecondsPerDay
    ensures now - oldest < 2 * SecondsPerDay ==> r == 1
  {
    var days := (now - oldest) / SecondsPerDay;
    if days < 1 then 1 else days
  }

  /** How often `c` occurs in `s`. */
  function Count(s: seq<string>, c: string): nat {
    multiset(s)[c]
  }

  /** A company of maximal count among `s[i..]`, counted over the whole of `s`; the first such
      in list order. Which of several tied companies pandas puts first is not modelled. */
  function MostFrequentFrom(s: seq<string>, i: nat): (r: string)
    requires i < |s|
    ensures exists k :: i <= k < |s| && s[k] == r
    ensures forall k :: i <= k < |s| ==> Count(s, s[k]) <= Count(s, r)
    decreases |s| - i
  {
    if i == |s| - 1 then s[i]
    else
      var best := MostFrequentFrom(s, i + 1);
      if Count(s, s[i]) >= Count(s, best) then s[i] else best
  }

  /** How many entries name `c` as their company. */
  function EntriesWith(data: seq<Entry>, c: string): nat
    decreases |data|
  {
    if data == [] then 0 else (if data[0].company == c then 1 else 0) + EntriesWith(data[1..], c)
  }

  /** The companies `update_kpis` counts: those with a non-whitespace character, each
      as often as entries name it. */
  function Companies(data: seq<Entry>): (r: seq<string>)
    ensures forall k :: 0 <= k < |r| ==> !IsBlank(r[k])
    ensures forall c :: Count(r, c) == if IsBlank(c) then 0 else EntriesWith(data, c)
    ensures |r| == |Seqs.Filter(data, (e: Entry) => !IsBlank(e.company))|
    ensures forall k :: 0 <= k < |data| && !IsBlank(data[k].company) ==> data[k].company in r
    ensures forall c :: c in r ==> exists k :: 0 <= k < |data| && data[k].company == c
    ensures r == [] <==> forall k :: 0 <= k < |data| ==> IsBlank(data[k].company)
    decreases |data|
  {
    if data == [] then []
    else
      var rest := Companies(data[1..]);
      var r := if IsBlank(data[0].company) then rest else [data[0].company] + rest;
      CompaniesCountStep(data, rest, r);
      CompaniesShapeStep(data, rest, r);
      CompaniesLengthStep(data, rest, r);
      r
  }

  /** One step of the length argument: the list grows exactly when the filter of
      non-blank companies does. */
  lemma CompaniesLengthStep(data: seq<Entry>, rest: seq<string>, r: seq<string>)
    requires data != []
    requires |rest| == |Seqs.Filter(data[1..], (e: Entry) => !IsBlank(e.company))|
    requires r == if IsBlank(data[0].company) then rest else [data[0].company] + rest
    ensures |r| == |Seqs.Filter(data, (e: Entry) => !IsBlank(e.company))|
  {
  }

  /** One step of the membership argument: prepending an entry adds its company in front,
      if it is not blank. */
  lemma CompaniesShapeStep(data: seq<Entry>, rest: seq<string>, r: seq<string>)
    requires data != []
    requires forall k :: 0 <= k < |rest| ==> !IsBlank(rest[k])
    requires forall k :: 0 <= k < |data[1..]| && !IsBlank(data[1..][k].company) ==> data[1..][k].company in rest
    requires forall c :: c in rest ==> exists k :: 0 <= k < |data[1..]| && data[1..][k].company == c
    requires rest == [] <==> forall k :: 0 <= k < |data[1..]| ==> IsBlank(data[1..][k].company)
    requires r == if IsBlank(data[0].company) then rest else [data[0].company] + rest
    ensures forall k :: 0 <= k < |r| ==> !IsBlank(r[k])
    ensures forall k :: 0 <= k < |data| && !IsBlank(data[k].company) ==> data[k].company in r
    ensures forall c :: c in r ==> exists k :: 0 <= k < |data| && data[k].company == c
    ensures r == [] <==> forall k :: 0 <= k < |data| ==> IsBlank(data[k].company)
  {
    assert forall k :: 1 <= k < |data| ==> data[k] == data[1..][k - 1];
    forall c | c in r ensures exists k :: 0 <= k < |data| && data[k].company == c {
      if c == data[0].company {
        assert data[0].company == c;
      } else {
        var k :| 0 <= k < |data[1..]| && data[1..][k].company == c;
        assert data[k + 1].company == c;
      }
    }
  }

  /** One step of the count argument: prepending an entry adds its company once, if
      it is not blank. */
  lemma CompaniesCountStep(data: seq<Entry>, rest: seq<string>, r: seq<string>)
    requires data != []
    requires forall c :: Count(rest, c) == if IsBlank(c) then 0 else EntriesWith(data[1..], c)
    requires r == if IsBlank(data[0].company) then rest else [data[0].company] + rest
    ensures forall c :: Count(r, c) == if IsBlank(c) then 0 else EntriesWith(data, c)
  {
    forall c ensures Count(r, c) == if IsBlank(c) then 0 else EntriesWith(data, c) {
      assert EntriesWith(data, c) == (if data[0].company == c then 1 else 0) + EntriesWith(data[1..], c);
      if !IsBlank(data[0].company) {
        assert multiset(r) == multiset{data[0].company} + multiset(rest);
      }
    }
  }

  /** The top-company card's value before truncation. */
  function TopCompany(data: seq<Entry>): (r: string)
    ensures Companies(data) == [] <==> forall k :: 0 <= k < |data| ==> IsBlank(data[k].company)
    ensures Companies(data) == [] ==> r == NoCompany
    ensures Companies(data) != [] ==>
      && r in Companies(data)
      && forall c :: c in Companies(data) ==> Count(Companies(data), c) <= Count(Companies(data), r)
    ensures Companies(data) != [] ==>
      && !IsBlank(r) && EntriesWith(data, r) >= 1
      && forall k :: 0 <= k < |data| && !IsBlank(data[k].company) ==> EntriesWith(data, data[k].company) <= EntriesWith(data, r)
  {
    var cs := Companies(data);
    if cs == [] then
      NoCompany
    else
      var r := MostFrequentFrom(cs, 0);
      assert forall c :: c in cs ==> Count(cs, c) <= Count(cs, r) by {
        forall c | c in cs ensures Count(cs, c) <= Count(cs, r) {
          var k :| 0 <= k < |cs| && cs[k] == c;
        }
      }
      r
  }

  /** The shown label: the first 15 characters and "..." when longer than 15. */
  function TruncateLabel(s: string): (r: string)
    ensures |s| <= LabelWidth ==> r == s
    ensures |s| > LabelWidth ==> |r| == LabelWidth + 3 && StartsWith(s, r[..LabelWidth]) && r[LabelWidth..] == "..."
  {
    if |s| > LabelWidth then s[..LabelWidth] + "..." else s
  }

  /** The shown label never exceeds 18 characters, and a label already short enough is
      a fixed point. */
  lemma TruncateLabelBounded(s: string)
    ensures |TruncateLabel(s)| <= LabelWidth + 3
    ensures |TruncateLabel(s)| <= LabelWidth ==> TruncateLabel(TruncateLabel(s)) == TruncateLabel(s)
  {
  }

  /** `update_kpis(data)`, on the dashboard's full list `all`: the period-filtered argument
      is not used. `None` when there are entries but none has a creation time, where
      `min()` of nothing raises and the refresh stops. */
  function UpdateKpis(all: seq<Entry>, periodData: seq<Entry>, now: int): (r: Option<Kpis>)
    ensures r.None? <==> all != [] && Oldest(all).None?
    ensures r.Some? ==>
      && r.value.total == |all|
      && r.value.recent == |FilterByPeriod(all, Week, now)|
      && (r.value.dayDivisor.None? <==> all == [])
      && (r.value.dayDivisor.Some? ==> r.value.dayDivisor.value >= 1)
      && (all != [] ==> Oldest(all).Some? && r.value.dayDivisor == Some(DayDivisor(now, Oldest(all).value)))
      && r.value.topCompany == TopCompany(all)
  {
    var recent := |Seqs.Filter(all, Since(Cutoff(now, 7)))|;
    if all == [] then Some(Kpis(0, recent, None, TopCompany(all)))
    else match Oldest(all)
      case None => None
      case Some(oldest) => Some(Kpis(|all|, recent, Some(DayDivisor(now, oldest)), TopCompany(all)))
  }

  /** The cards do not depend on the selected period. */
  lemma KpisIgnorePeriod(all: seq<Entry>, p1: string, p2: string, now: int)
    ensures UpdateKpis(all, FilterByPeriod(all, p1, now), now) == UpdateKpis(all, FilterByPeriod(all, p2, now), now)
  {
  }

  /** The recent count is at most the total. */
  lemma RecentAtMostTotal(all: seq<Entry>, now: int)
    requires UpdateKpis(all, all, now).Some?
    ensures UpdateKpis(all, all, now).value.recent <= UpdateKpis(all, all, now).value.total
  {
  }

  /** The dashboard's refresh: load the entries, filter by the selected period, compute the
      cards. A failed read yields no entries, so the cards show zero and "N/A". Whatever
      the period, the cards are those of the whole list. */
  function RefreshKpis(all: seq<Entry>, period: string, now: int): (r: Option<Kpis>)
    ensures all == [] ==> r == Some(Kpis(0, 0, None, NoCompany))
    ensures r == UpdateKpis(all, all, now)
  {
    KpisIgnorePeriod(all, period, AllTime, now);
    UpdateKpis(all, FilterByPeriod(all, period, now), now)
  }
}

=== FILE: detector.dfy ===
/** The modification-time change detector of `database/manager.py`
    (`get_last_modified` and `has_database_changed`). A modification time is an
    abstract value compared only for equality. */
module ChangeDetector {
  import opened Base

  /** `_last_modified`: the baseline seen at the previous check, `None` before the first. */
  datatype Detector = Detector(lastModified: Option<int>)

  const Fresh := Detector(None)

  /** `get_last_modified`: the file's mtime when it exists and can be read, else `None`. */
  function GetLastModified(exists_: bool, mtime: int, statFails: bool): (r: Option<int>)
    ensures r.Some? <==> exists_ && !statFails
    ensures r.Some? ==> r.value == mtime
  {
    if exists_ && !statFails then Some(mtime) else None
  }

  /** `has_database_changed` given the mtime observed now. With no baseline the call
      stores the observation and reports a change; otherwise it reports whether the
      observation differs from the baseline and, if so, moves the baseline to it. */
  function HasChanged(d: Detector, current: Option<int>): (r: (bool, Detector))
    ensures d.lastModified.None? ==> r.0
    ensures d.lastModified.Some? ==> (r.0 <==> current != d.lastModified)
    ensures r.0 ==> r.1.lastModified == current
    ensures !r.0 ==> r.1 == d
  {
    if d.lastModified.None? then (true, Detector(current))
    else if current != d.lastModified then (true, Detector(current))
    else (false, d)
  }

  /** The answers of successive checks against a sequence of observations. */
  function Run(d: Detector, observations: seq<Option<int>>): (r: seq<bool>)
    ensures |r| == |observations|
    decreases |observations|
  {
    if observations == [] then []
    else
      var (changed, d') := HasChanged(d, observations[0]);
      [changed] + Run(d', observations[1..])
  }

  /** The first check after construction always reports a change. */
  lemma FirstCheckReportsChange(current: Option<int>)
    ensures HasChanged(Fresh, current).0
    ensures HasChanged(Fresh, current).1.lastModified == current
  {
  }

  /** While the file is missing every check reports a change: the baseline stays `None`. */
  lemma {:induction false} MissingFileAlwaysChanged(d: Detector, n: nat)
    requires d.lastModified.None?
    ensures Run(d, seq(n, _ => None)) == seq(n, _ => true)
    decreases n
  {
    if n > 0 {
      var obs: seq<Option<int>> := seq(n, _ => None);
      assert obs[1..] == seq(n - 1, _ => None);
      MissingFileAlwaysChanged(Detector(None), n - 1);
    }
  }

  /** After a check has seen mtime `m`, further checks that keep seeing `m` report nothing. */
  lemma {:induction false} StableFileQuiet(m: int, n: nat)
    ensures Run(Detector(Some(m)), seq(n, _ => Some(m))) == seq(n, _ => false)
    decreases n
  {
    if n > 0 {
      var obs: seq<Option<int>> := seq(n, _ => Some(m));
      assert obs[1..] == seq(n - 1, _ => Some(m));
      StableFileQuiet(m, n - 1);
    }
  }

  /** A change of an existing file's mtime is reported exactly once: the first check
      after it reports a change and the following checks of the same mtime do not. */
  lemma ChangeReportedOnce(m0: int, m1: int, n: nat)
    requires m0 != m1
    ensures Run(Detector(Some(m0)), [Some(m1)] + seq(n, _ => Some(m1))) == [true] + seq(n, _ => false)
  {
    var obs := [Some(m1)] + seq(n, _ => Some(m1));
    assert obs[1..] == seq(n, _ => Some(m1));
    StableFileQuiet(m1, n);
  }
}

=== FILE: entry_form.dfy ===
/** The save flow of `DataEntryForm` in `ui/entry_form.py`: the blank-name check,
    stripping of the six inputs, the store call and the clearing of the form. The
    login name `os.getlogin()` returns is a parameter; `None` stands for the call
    raising. Message boxes are reduced to which outcome was reported. */
module EntryForm {
  import opened Base
  import opened Text
  import opened Models
  import opened Store
  import Validators

  /** The six inputs as typed: five line edits and the notes box. */
  datatype Form = Form(name: string, email: string, phone: string, company: string, position: string, notes: string)

  const EmptyForm := Form("", "", "", "", "", "")

  /** Which message the user is shown. */
  datatype Outcome =
    | NameMissing          // "Name is required!"; nothing is saved
    | Saved(id: int)       // "Entry saved successfully!"
    | FalsyId              // "Failed to save entry!": the store returned id 0
    | Failed(error: string) // "An error occurred: ..."

  datatype SaveResult = SaveResult(form: Form, table: Table, outcome: Outcome, savedSignal: bool)

  /** The `DataEntry` built from the form: every input stripped, the login as author. */
  function FormEntry(f: Form, login: string): (e: Entry)
    ensures e.id.None? && e.createdAt.None? && e.updatedAt.None?
    ensures e.name == Strip(f.name) && e.email == Strip(f.email) && e.phone == Strip(f.phone)
    ensures e.company == Strip(f.company) && e.position == Strip(f.position) && e.notes == Strip(f.notes)
    ensures e.createdBy == login
  {
    DefaultEntry.(name := Strip(f.name), email := Strip(f.email), phone := Strip(f.phone),
                  company := Strip(f.company), position := Strip(f.position), notes := Strip(f.notes),
                  createdBy := login)
  }

  /** `save_entry`. Only the name is checked; the email and phone validators are not called. */
  function SaveEntry(f: Form, t: Table, now: int, login: Option<string>, fault: bool): (r: SaveResult)
    requires Valid(t)
    ensures IsBlank(f.name) ==> r == SaveResult(f, t, NameMissing, false)
    ensures r.savedSignal <==> r.outcome.Saved?
    ensures r.outcome.Saved? <==> !IsBlank(f.name) && login.Some? && !fault && t.lastId < MaxRowId
    ensures !r.outcome.Saved? ==> r.form == f && r.table == t
    ensures Valid(r.table)
    ensures r.outcome.Saved? ==>
      && r.form == EmptyForm
      && r.outcome.id !in Ids(t)
      && Ids(r.table) == Ids(t) + {r.outcome.id}
      && var row := r.table.rows[|r.table.rows| - 1];
      && row.id == r.outcome.id
      && row.name == Strip(f.name) && row.email == Strip(f.email) && row.phone == Strip(f.phone)
      && row.company == Strip(f.company) && row.position == Strip(f.position) && row.notes == Strip(f.notes)
      && row.createdBy == login.value && row.createdAt == now && row.updatedAt == now
  {
    if IsBlank(f.name) then SaveResult(f, t, NameMissing, false)
    else if login.None? then SaveResult(f, t, Failed("getlogin failed"), false)
    else Submit(f, t, now, login.value, fault)
  }

  /** The part of `save_entry` after the name check and the login lookup: the store call,
      and on success the signal and the cleared form. */
  function Submit(f: Form, t: Table, now: int, login: string, fault: bool): (r: SaveResult)
    requires Valid(t)
    ensures r.savedSignal <==> r.outcome.Saved?
    ensures r.outcome.Saved? <==> !fault && t.lastId < MaxRowId
    ensures !r.outcome.Saved? ==> r.form == f && r.table == t && r.outcome.Failed?
    ensures Valid(r.table)
    ensures r.outcome.Saved? ==>
      && r.form == EmptyForm
      && r.outcome.id !in Ids(t)
      && Ids(r.table) == Ids(t) + {r.outcome.id}
      && r.table.rows[|r.table.rows| - 1] == Row(r.outcome.id, Strip(f.name), Strip(f.email), Strip(f.phone),
                                                  Strip(f.company), Strip(f.position), Strip(f.notes), now, now, login)
  {
    var e := FormEntry(f, login);
    match CreateEntry(t, e, now, fault)
    case Err(msg) => SaveResult(f, t, Failed(msg), false)
    case Ok((t', id)) =>
      if id != 0 then
        CreatedRow(t, e, now);
        SaveResult(ClearForm(f), t', Saved(id), true)
      else SaveResult(f, t, FalsyId, false)
  }

  /** A successful create adds one fresh id, in a last row holding the entry's fields. */
  lemma CreatedRow(t: Table, e: Entry, now: int)
    requires Valid(t) && CreateEntry(t, e, now, false).Ok?
    ensures var (t', id) := CreateEntry(t, e, now, false).value;
      && id !in Ids(t)
      && Ids(t') == Ids(t) + {id}
      && t'.rows[|t'.rows| - 1] == Row(id, e.name, e.email, e.phone, e.company, e.position, e.notes, now, now, e.createdBy)
  {
    var (t', id) := CreateEntry(t, e, now, false).value;
    var row := t'.rows[|t'.rows| - 1];
    assert t'.rows == t.rows + [row];
    assert forall x :: x in Ids(t') <==> x in Ids(t) || x == row.id;
  }

  /** `clear_form`: all six inputs emptied. */
  function ClearForm(f: Form): (r: Form)
    ensures r.name == r.email == r.phone == r.company == r.position == r.notes == ""
  {
    EmptyForm
  }

  /** The form refuses exactly the names the generic required-field validator refuses. */
  lemma NameCheckIsRequiredField(f: Form, t: Table, now: int, login: Option<string>, fault: bool)
    requires Valid(t)
    ensures SaveEntry(f, t, now, login, fault).outcome == NameMissing
            <==> !Validators.ValidateRequiredField(f.name, "Name").ok
  {
  }

  /** A saved entry always passes the name validator's required check, but its other
      inputs are stored unchecked: the email does not influence whether saving succeeds. */
  lemma EmailNotValidated(f: Form, t: Table, now: int, login: Option<string>, fault: bool, email: string)
    requires Valid(t)
    ensures SaveEntry(f.(email := email), t, now, login, fault).outcome.Saved?
            == SaveEntry(f, t, now, login, fault).outcome.Saved?
  {
  }

  /** Saving twice in a row saves once: the second attempt finds an empty name. */
  lemma SecondSaveRefused(f: Form, t: Table, now: int, login: Option<string>, fault: bool)
    requires Valid(t)
    requires !IsBlank(f.name) && login.Some? && !fault && t.lastId < MaxRowId
    ensures SaveEntry(f, t, now, login, fault).outcome.Saved?
    ensures var r := SaveEntry(f, t, now, login, fault);
      SaveEntry(r.form, r.table, now, login, fault).outcome == NameMissing
  {
  }
}

=== FILE: models.dfy ===
/** The `DataEntry` record of `database/models.py` and its dictionary form.
    Timestamps are whole seconds; the ISO-8601 text that `isoformat` produces
    for a timestamp `t` is represented abstractly by the dictionary value `Stamp(t)`. */
module Models {
  import opened Base

  datatype Entry = Entry(
    id: Option<int>,
    name: string,
    email: string,
    phone: string,
    company: string,
    position: string,
    notes: string,
    createdAt: Option<int>,
    updatedAt: Option<int>,
    createdBy: string)

  /** `DataEntry()` with every field at its declared default. */
  const DefaultEntry := Entry(None, "", "", "", "", "", "", None, None, "")

  /** A value stored in the dictionary form: Python's `None`, an `int`, a `str`
      that is not a timestamp's ISO text, or the ISO text of timestamp `t`. */
  datatype Value = Null | Int(i: int) | Text(s: string) | Stamp(t: int)

  type Dict = map<string, Value>

  const KeyId := "id"
  const KeyName := "name"
  const KeyEmail := "email"
  const KeyPhone := "phone"
  const KeyCompany := "company"
  const KeyPosition := "position"
  const KeyNotes := "notes"
  const KeyCreatedAt := "created_at"
  const KeyUpdatedAt := "updated_at"
  const KeyCreatedBy := "created_by"

  const TextKeys: set<string> := {KeyName, KeyEmail, KeyPhone, KeyCompany, KeyPosition, KeyNotes, KeyCreatedBy}
  const StampKeys: set<string> := {KeyCreatedAt, KeyUpdatedAt}
  const FieldKeys: set<string> := {KeyId} + TextKeys + StampKeys

  /** `d.get(key, default)` for a text field. */
  function GetText(d: Dict, key: string): string {
    if key in d && d[key].Text? then d[key].s else ""
  }

  /** Python truthiness of a dictionary value. */
  predicate Truthy(v: Value) {
    match v
    case Null => false
    case Int(i) => i != 0
    case Text(s) => s != ""
    case Stamp(_) => true
  }

  /** `datetime.fromisoformat(d[key]) if d.get(key) else None`: a falsy value
      gives no timestamp, ISO text parses, any other truthy value raises. */
  function ParseStamp(d: Dict, key: string): (r: Result<Option<int>>)
    ensures key !in d ==> r == Ok(None)
    ensures key in d && d[key].Stamp? ==> r == Ok(Some(d[key].t))
    ensures key in d && (d[key] == Null || d[key] == Text("")) ==> r == Ok(None)
    ensures r.Err? <==> key in d && Truthy(d[key]) && !d[key].Stamp?
  {
    if key !in d || !Truthy(d[key]) then Ok(None)
    else if d[key].Stamp? then Ok(Some(d[key].t))
    else Err("Invalid isoformat string")
  }

  /** Each present field holds a value of the field's declared type: an optional
      int for `id`, a `str` for the text fields; a timestamp field may hold anything. */
  predicate FieldsTyped(d: Dict) {
    && (KeyId in d ==> d[KeyId].Null? || d[KeyId].Int?)
    && (forall k :: k in TextKeys && k in d ==> d[k].Text?)
  }

  function TimeValue(t: Option<int>): Value {
    match t
    case None => Null
    case Some(v) => Stamp(v)
  }

  /** `DataEntry.to_dict`. */
  function ToDict(e: Entry): (r: Dict)
    ensures r.Keys == FieldKeys
    ensures FieldsTyped(r)
    ensures r[KeyCreatedAt] == Null <==> e.createdAt.None?
    ensures r[KeyUpdatedAt] == Null <==> e.updatedAt.None?
  {
    map[
      KeyId := (if e.id.Some? then Int(e.id.value) else Null),
      KeyName := Text(e.name),
      KeyEmail := Text(e.email),
      KeyPhone := Text(e.phone),
      KeyCompany := Text(e.company),
      KeyPosition := Text(e.position),
      KeyNotes := Text(e.notes),
      KeyCreatedAt := TimeValue(e.createdAt),
      KeyUpdatedAt := TimeValue(e.updatedAt),
      KeyCreatedBy := Text(e.createdBy)]
  }

  /** `DataEntry.from_dict`: missing keys take the defaults, keys outside the ten
      fields are ignored, and a timestamp that is not ISO text raises. */
  function FromDict(d: Dict): (r: Result<Entry>)
    requires FieldsTyped(d)
    ensures r.Ok? <==> ParseStamp(d, KeyCreatedAt).Ok? && ParseStamp(d, KeyUpdatedAt).Ok?
    ensures r.Ok? ==> r.value.id == (if KeyId in d && d[KeyId].Int? then Some(d[KeyId].i) else None)
    ensures r.Ok? ==> r.value.name == GetText(d, KeyName) && r.value.email == GetText(d, KeyEmail)
    ensures r.Ok? ==> r.value.phone == GetText(d, KeyPhone) && r.value.company == GetText(d, KeyCompany)
    ensures r.Ok? ==> r.value.position == GetText(d, KeyPosition) && r.value.notes == GetText(d, KeyNotes)
    ensures r.Ok? ==> r.value.createdBy == GetText(d, KeyCreatedBy)
    ensures r.Ok? ==> r.value.createdAt == ParseStamp(d, KeyCreatedAt).value
    ensures r.Ok? ==> r.value.updatedAt == ParseStamp(d, KeyUpdatedAt).value
  {
    var created := ParseStamp(d, KeyCreatedAt);
    var updated := ParseStamp(d, KeyUpdatedAt);
    if created.Err? then Err(created.error)
    else if updated.Err? then Err(updated.error)
    else Ok(Entry(
      if KeyId in d && d[KeyId].Int? then Some(d[KeyId].i) else None,
      GetText(d, KeyName),
      GetText(d, KeyEmail),
      GetText(d, KeyPhone),
      GetText(d, KeyCompany),
      GetText(d, KeyPosition),
      GetText(d, KeyNotes),
      created.value,
      updated.value,
      GetText(d, KeyCreatedBy)))
  }

  /** Every entry survives the trip through its dictionary form. */
  lemma FromToDict(e: Entry)
    ensures FromDict(ToDict(e)) == Ok(e)
  {
  }

  /** The dictionary of the entry read from a normalised dictionary (exactly the
      ten keys, timestamps absent or ISO text) is that dictionary again. */
  lemma ToFromDict(d: Dict)
    requires FieldsTyped(d) && d.Keys == FieldKeys
    requires forall k :: k in StampKeys ==> d[k].Null? || d[k].Stamp?
    ensures FromDict(d).Ok? && ToDict(FromDict(d).value) == d
  {
    var e := FromDict(d).value;
    var back := ToDict(e);
    forall k | k in FieldKeys ensures back[k] == d[k] {
    }
  }

  /** An empty dictionary gives the default entry. */
  lemma FromEmptyDictIsDefault()
    ensures FromDict(map[]) == Ok(DefaultEntry)
  {
  }

  /** Keys other than the ten fields never influence `from_dict`. */
  lemma FromDictIgnoresExtraKeys(d: Dict)
    requires FieldsTyped(d)
    ensures FieldsTyped(d - (d.Keys - FieldKeys))
    ensures FromDict(d - (d.Keys - FieldKeys)) == FromDict(d)
  {
    var d' := d - (d.Keys - FieldKeys);
    forall k | k in FieldKeys
      ensures GetText(d', k) == GetText(d, k) && ParseStamp(d', k) == ParseStamp(d, k)
    {
      SameEntryAt(d', d, k);
    }
  }

  /** Reading one key looks at that key's entry and nothing else. */
  lemma SameEntryAt(d: Dict, d': Dict, k: string)
    requires k in d <==> k in d'
    requires k in d ==> d[k] == d'[k]
    ensures GetText(d, k) == GetText(d', k)
    ensures ParseStamp(d, k) == ParseStamp(d', k)
  {
  }

  /** An empty or `None` timestamp reads as no timestamp. */
  lemma FalsyStampIsAbsent(d: Dict, key: string)
    requires key in d && (d[key] == Null || d[key] == Text(""))
    ensures ParseStamp(d, key) == Ok(None)
  {
  }
}

=== FILE: seqs.dfy ===
/** Generic sequence operations: Python's list comprehension with an `if`
    clause, and a sort by a key in descending order. */
module Seqs {

  /** `[x for x in s if p(x)]`. */
  function Filter<T>(s: seq<T>, p: T -> bool): (r: seq<T>)
    ensures |r| <= |s|
    ensures forall k :: 0 <= k < |r| ==> r[k] in s && p(r[k])
    ensures forall k :: 0 <= k < |s| && p(s[k]) ==> s[k] in r
    decreases |s|
  {
    if s == [] then [] else (if p(s[0]) then [s[0]] else []) + Filter(s[1..], p)
  }

  /** A filter keeps every passing element exactly as often as it occurs, and nothing
      else: its multiset is the input's restricted to the passing elements. */
  lemma {:induction false} FilterMultiplicity<T>(s: seq<T>, p: T -> bool)
    ensures multiset(Filter(s, p)) <= multiset(s)
    ensures forall k :: 0 <= k < |s| && p(s[k]) ==> multiset(Filter(s, p))[s[k]] == multiset(s)[s[k]]
    decreases |s|
  {
    if s != [] {
      FilterMultiplicity(s[1..], p);
      FilterMultisetStep(s, p, Filter(s[1..], p), Filter(s, p));
    }
  }

  /** One step of the multiplicity argument for `Filter`. */
  lemma FilterMultisetStep<T>(s: seq<T>, p: T -> bool, rest: seq<T>, r: seq<T>)
    requires s != []
    requires forall k :: 0 <= k < |rest| ==> p(rest[k])
    requires multiset(rest) <= multiset(s[1..])
    requires forall k :: 0 <= k < |s[1..]| && p(s[1..][k]) ==> multiset(rest)[s[1..][k]] == multiset(s[1..])[s[1..][k]]
    requires r == (if p(s[0]) then [s[0]] else []) + rest
    ensures multiset(r) <= multiset(s)
    ensures forall k :: 0 <= k < |s| && p(s[k]) ==> multiset(r)[s[k]] == multiset(s)[s[k]]
  {
    assert s == [s[0]] + s[1..];
    assert multiset(s) == multiset{s[0]} + multiset(s[1..]);
    forall k | 0 <= k < |s| && p(s[k]) ensures multiset(r)[s[k]] == multiset(s)[s[k]] {
      if s[k] !in multiset(s[1..]) {
        assert s[k] !in rest;
      } else {
        var i :| 0 <= i < |s[1..]| && s[1..][i] == s[k];
      }
    }
  }

  /** Taking element `j` out of `b` takes one copy of it out of the multiset. */
  lemma MultisetRemove<T>(b: seq<T>, j: nat, rest: seq<T>)
    requires j < |b| && rest == b[..j] + b[j + 1..]
    ensures multiset(b) == multiset(rest) + multiset{b[j]}
  {
    assert b == b[..j] + [b[j]] + b[j + 1..];
  }

  /** Adding the same element to two multisets keeps them apart or equal. */
  lemma MultisetCancel<T>(a: multiset<T>, b: multiset<T>, x: T)
    requires a + multiset{x} == b + multiset{x}
    ensures a == b
  {
    forall y ensures a[y] == b[y] {
      assert (a + multiset{x})[y] == (b + multiset{x})[y];
    }
  }

  /** `a` is `b` with some elements dropped and the rest kept in order. */
  predicate IsSubsequence<T(==)>(a: seq<T>, b: seq<T>)
    decreases |b|
  {
    a == [] || (b != [] && ((a[0] == b[0] && IsSubsequence(a[1..], b[1..])) || IsSubsequence(a, b[1..])))
  }

  /** Every sequence is a subsequence of itself. */
  lemma {:induction false} SubsequenceOfItself<T>(s: seq<T>)
    ensures IsSubsequence(s, s)
    decreases |s|
  {
    if s != [] {
      SubsequenceOfItself(s[1..]);
    }
  }

  /** A filter keeps the survivors in their original order. */
  lemma {:induction false} FilterIsSubsequence<T>(s: seq<T>, p: T -> bool)
    ensures IsSubsequence(Filter(s, p), s)
    decreases |s|
  {
    if s != [] {
      FilterIsSubsequence(s[1..], p);
      if p(s[0]) {
        assert Filter(s, p) == [s[0]] + Filter(s[1..], p);
        assert Filter(s, p)[1..] == Filter(s[1..], p);
      } else {
        assert Filter(s, p) == Filter(s[1..], p);
      }
    }
  }

  /** Filtering distributes over concatenation. */
  lemma {:induction false} FilterConcat<T>(a: seq<T>, b: seq<T>, p: T -> bool)
    ensures Filter(a + b, p) == Filter(a, p) + Filter(b, p)
    decreases |a|
  {
    if a == [] {
      assert a + b == b;
    } else {
      assert (a + b)[1..] == a[1..] + b;
      FilterConcat(a[1..], b, p);
    }
  }

  /** A filter whose test every element passes returns its input. */
  lemma {:induction false} FilterKeepsAll<T>(s: seq<T>, p: T -> bool)
    requires forall k :: 0 <= k < |s| ==> p(s[k])
    ensures Filter(s, p) == s
    decreases |s|
  {
    if s != [] {
      FilterKeepsAll(s[1..], p);
    }
  }

  /** Sorted so that `key` never increases from left to right. */
  predicate SortedDesc<T>(s: seq<T>, key: T -> int) {
    forall i, j :: 0 <= i < j < |s| ==> key(s[i]) >= key(s[j])
  }

  /** Places `x` before the first element whose key is strictly smaller,
      so elements with equal keys keep their relative order. */
  function InsertDesc<T>(x: T, s: seq<T>, key: T -> int): (r: seq<T>)
    requires SortedDesc(s, key)
    ensures SortedDesc(r, key)
    ensures multiset(r) == multiset(s) + multiset{x}
    decreases |s|
  {
    if s == [] || key(s[0]) < key(x) then
      ConsSorted(x, s, key);
      [x] + s
    else
      var tail := InsertDesc(x, s[1..], key);
      assert s == [s[0]] + s[1..];
      forall k | 0 <= k < |tail| ensures key(tail[k]) <= key(s[0]) {
        assert tail[k] in multiset(s[1..]) + multiset{x};
      }
      ConsSorted(s[0], tail, key);
      [s[0]] + tail
  }

  /** A sorted sequence stays sorted under a head whose key bounds all of it. */
  lemma ConsSorted<T>(a: T, t: seq<T>, key: T -> int)
    requires SortedDesc(t, key)
    requires forall k :: 0 <= k < |t| ==> key(t[k]) <= key(a)
    ensures SortedDesc([a] + t, key)
  {
    var s := [a] + t;
    forall i, j | 0 <= i < j < |s| ensures key(s[i]) >= key(s[j]) {
      assert s[j] == t[j - 1];
      if i > 0 {
        assert s[i] == t[i - 1];
      }
    }
  }

  /** A stable insertion sort on `key`, largest key first. */
  function SortDesc<T>(s: seq<T>, key: T -> int): (r: seq<T>)
    ensures SortedDesc(r, key)
    ensures multiset(r) == multiset(s)
    decreases |s|
  {
    if s == [] then []
    else
      assert s == [s[0]] + s[1..];
      InsertDesc(s[0], SortDesc(s[1..], key), key)
  }
}

=== FILE: sidebar.dfy ===
/** `ModernSidebar` and `ModernButton` of `ui/sidebar.py`: which navigation button
    is highlighted, the collapse toggle, and what the buttons read. The width
    animation is reduced to its end value. */
module Sidebar {

  /** A `ModernButton`: its two captions, the caption shown and whether it is highlighted. */
  datatype Button = Button(fullText: string, iconText: string, text: string, active: bool)

  /** `ModernButton(text, icon_text)`: shows the full caption and is not highlighted. */
  function NewButton(fullText: string, iconText: string): (b: Button)
    ensures b.text == fullText && !b.active
  {
    Button(fullText, iconText, fullText, false)
  }

  /** `ModernButton.set_active`. */
  function SetActive(b: Button, active: bool): (r: Button)
    ensures r.active == active && r.text == b.text
    ensures r.fullText == b.fullText && r.iconText == b.iconText
  {
    b.(active := active)
  }

  /** `ModernButton.set_collapsed`: the icon alone when collapsed, the full caption otherwise. */
  function SetCollapsed(b: Button, collapsed: bool): (r: Button)
    ensures r.text == (if collapsed then b.iconText else b.fullText)
    ensures r.active == b.active && r.fullText == b.fullText && r.iconText == b.iconText
  {
    b.(text := if collapsed then b.iconText else b.fullText)
  }

  const EntryCaption := "\U{1F4DD} Data Entry"
  const EntryIcon := "\U{1F4DD}"
  const ViewerCaption := "\U{1F4CA} View Data"
  const ViewerIcon := "\U{1F4CA}"
  const CollapseCaption := "\U{25C0} Collapse"
  const ExpandArrow := "\U{25B6}"
  const CollapseArrow := "\U{25C0}"

  /** `SIDEBAR_WIDTH` and `SIDEBAR_COLLAPSED_WIDTH`. */
  const SidebarWidth := 250
  const CollapsedWidth := 60

  datatype Sidebar = Sidebar(
    collapsed: bool,
    entry: Button,
    viewer: Button,
    toggle: Button,
    headerVisible: bool,
    width: int)

  datatype Request = EntryFormRequested | DataViewerRequested

  /** `ModernSidebar.set_active_button(name)`. */
  function SetActiveButton(s: Sidebar, name: string): (r: Sidebar)
    ensures r.entry.active <==> name == "entry"
    ensures r.viewer.active <==> name == "viewer"
    ensures r.collapsed == s.collapsed && r.toggle == s.toggle && r.headerVisible == s.headerVisible
    ensures r.entry.text == s.entry.text && r.viewer.text == s.viewer.text
  {
    s.(entry := SetActive(s.entry, name == "entry"), viewer := SetActive(s.viewer, name == "viewer"))
  }

  /** `ModernSidebar()`: expanded, full width, header shown, the entry button highlighted. */
  function NewSidebar(): (r: Sidebar)
    ensures !r.collapsed && r.headerVisible && r.width == SidebarWidth
    ensures r.entry.active && !r.viewer.active
    ensures r.toggle.text == CollapseCaption
    ensures r.entry.text == r.entry.fullText && r.viewer.text == r.viewer.fullText
  {
    var s := Sidebar(false, NewButton(EntryCaption, EntryIcon), NewButton(ViewerCaption, ViewerIcon),
                     NewButton(CollapseCaption, ExpandArrow), true, SidebarWidth);
    SetActiveButton(s, "entry")
  }

  /** `toggle_sidebar`: flips the collapsed flag and sets everything that depends on it. */
  function ToggleSidebar(s: Sidebar): (r: Sidebar)
    ensures r.collapsed == !s.collapsed
    ensures Settled(r)
    ensures r.entry.active == s.entry.active && r.viewer.active == s.viewer.active
    ensures r.entry.fullText == s.entry.fullText && r.entry.iconText == s.entry.iconText
    ensures r.viewer.fullText == s.viewer.fullText && r.viewer.iconText == s.viewer.iconText
  {
    var c := !s.collapsed;
    s.(collapsed := c,
       toggle := s.toggle.(text := if c then ExpandArrow else CollapseArrow),
       headerVisible := !c,
       entry := SetCollapsed(s.entry, c),
       viewer := SetCollapsed(s.viewer, c),
       width := if c then CollapsedWidth else SidebarWidth)
  }

  /** Everything the collapsed flag governs agrees with it. */
  predicate Settled(s: Sidebar) {
    && s.headerVisible == !s.collapsed
    && s.toggle.text == (if s.collapsed then ExpandArrow else CollapseArrow)
    && s.entry.text == (if s.collapsed then s.entry.iconText else s.entry.fullText)
    && s.viewer.text == (if s.collapsed then s.viewer.iconText else s.viewer.fullText)
    && s.width == (if s.collapsed then CollapsedWidth else SidebarWidth)
  }

  /** `on_entry_clicked` and `on_viewer_clicked`: highlight first, then request the view. */
  function OnEntryClicked(s: Sidebar): (r: (Sidebar, Request))
    ensures r.0.entry.active && !r.0.viewer.active && r.1 == EntryFormRequested
    ensures r.0.collapsed == s.collapsed
  {
    (SetActiveButton(s, "entry"), EntryFormRequested)
  }

  function OnViewerClicked(s: Sidebar): (r: (Sidebar, Request))
    ensures !r.0.entry.active && r.0.viewer.active && r.1 == DataViewerRequested
    ensures r.0.collapsed == s.collapsed
  {
    (SetActiveButton(s, "viewer"), DataViewerRequested)
  }

  /** The main window highlights "dashboard", a name no button answers to: nothing stays lit. */
  lemma DashboardDeactivatesBoth(s: Sidebar)
    ensures !SetActiveButton(s, "dashboard").entry.active && !SetActiveButton(s, "dashboard").viewer.active
  {
  }

  /** Once toggled, two more toggles give back the same sidebar. */
  lemma ToggleTwiceRestores(s: Sidebar)
    ensures ToggleSidebar(ToggleSidebar(s)).collapsed == s.collapsed
    ensures Settled(s) ==> ToggleSidebar(ToggleSidebar(s)) == s
  {
  }

  /** The sidebar after `n` toggles. */
  function Toggles(s: Sidebar, n: nat): (r: Sidebar)
    ensures r.collapsed == (if n % 2 == 0 then s.collapsed else !s.collapsed)
    decreases n
  {
    if n == 0 then s else ToggleSidebar(Toggles(s, n - 1))
  }

  /** From the start, the toggle button never again reads "◀ Collapse": after any toggle it
      shows one arrow alone, and the highlighted button stays the entry button. */
  lemma {:induction false} CollapseCaptionNeverReturns(n: nat)
    requires n >= 1
    ensures Toggles(NewSidebar(), n).toggle.text != CollapseCaption
    ensures Toggles(NewSidebar(), n).entry.active && !Toggles(NewSidebar(), n).viewer.active
    decreases n
  {
    if n > 1 {
      CollapseCaptionNeverReturns(n - 1);
    }
    var r := Toggles(NewSidebar(), n);
    assert |r.toggle.text| == 1;
  }
}

=== FILE: store.dfy ===
/** The `data_entries` table and the CRUD operations of `database/manager.py`,
    with the SQL replaced by its effect on an abstract table.

    The table keeps its rows in rowid order, as the table's b-tree does, and
    `lastId` plays the part of the `sqlite_sequence` entry that AUTOINCREMENT
    keeps: the largest id ever handed out, 0 before the first insert. `now` is
    the value `CURRENT_TIMESTAMP` has during the statement, in seconds. A
    `fault` flag stands for any exception sqlite raises during the call. */
module Store {
  import opened Base
  import opened Models
  import Seqs

  datatype Row = Row(
    id: int,
    name: string,
    email: string,
    phone: string,
    company: string,
    position: string,
    notes: string,
    createdAt: int,
    updatedAt: int,
    createdBy: string)

  datatype Table = Table(rows: seq<Row>, lastId: int)

  /** The largest rowid sqlite can hand out; AUTOINCREMENT fails with SQLITE_FULL beyond it. */
  const MaxRowId := 0x7FFF_FFFF_FFFF_FFFF

  /** A freshly created table: no rows, no id handed out yet. */
  const EmptyTable := Table([], 0)

  /** Rows are in strictly increasing id order and no id exceeds the largest one handed out. */
  predicate Valid(t: Table) {
    && 0 <= t.lastId <= MaxRowId
    && (forall i :: 0 <= i < |t.rows| ==> 1 <= t.rows[i].id <= t.lastId)
    && (forall i, j :: 0 <= i < j < |t.rows| ==> t.rows[i].id < t.rows[j].id)
  }

  function Ids(t: Table): set<int> {
    set r | r in t.rows :: r.id
  }

  /** Position of the row with id `id`, if there is one. */
  function Find(rows: seq<Row>, id: int): (r: Option<nat>)
    ensures r.Some? ==> r.value < |rows| && rows[r.value].id == id
    ensures r.None? ==> forall i :: 0 <= i < |rows| ==> rows[i].id != id
    decreases |rows|
  {
    if rows == [] then None
    else if rows[|rows| - 1].id == id then Some(|rows| - 1)
    else Find(rows[..|rows| - 1], id)
  }

  /** The `DataEntry` built from a row by `get_all_entries`. */
  function ToEntry(r: Row): Entry {
    Entry(Some(r.id), r.name, r.email, r.phone, r.company, r.position, r.notes,
          Some(r.createdAt), Some(r.updatedAt), r.createdBy)
  }

  /** `create_entry`: `INSERT` of the six text fields and `created_by`; the id the
      caller supplies is ignored and both timestamps take their `CURRENT_TIMESTAMP` default.
      Errors propagate, so a failure is an `Err` rather than a return value. */
  function CreateEntry(t: Table, e: Entry, now: int, fault: bool): (r: Result<(Table, int)>)
    requires Valid(t)
    ensures r.Ok? <==> !fault && t.lastId < MaxRowId
    ensures r.Ok? ==> Valid(r.value.0)
    ensures r.Ok? ==> var (t', id) := r.value;
      && id == t.lastId + 1
      && (forall x :: x in Ids(t) ==> x < id)
      && t'.lastId == id
      && t'.rows == t.rows + [Row(id, e.name, e.email, e.phone, e.company, e.position, e.notes, now, now, e.createdBy)]
  {
    if fault then Err("sqlite3.Error")
    else if t.lastId >= MaxRowId then Err("database or disk is full")
    else
      var id := t.lastId + 1;
      var row := Row(id, e.name, e.email, e.phone, e.company, e.position, e.notes, now, now, e.createdBy);
      Ok((Table(t.rows + [row], id), id))
  }

  /** The rows of `ORDER BY updated_at DESC`: most recently touched first. Rows with
      equal `updated_at` are left in rowid order, one of the orders sqlite may return. */
  function ListRows(t: Table): (r: seq<Row>)
    ensures |r| == |t.rows|
    ensures multiset(r) == multiset(t.rows)
    ensures forall row :: row in r <==> row in t.rows
    ensures forall i, j :: 0 <= i < j < |r| ==> r[i].updatedAt >= r[j].updatedAt
  {
    var sorted := Seqs.SortDesc(t.rows, (row: Row) => row.updatedAt);
    assert |sorted| == |multiset(sorted)|;
    assert forall row :: row in sorted <==> row in multiset(sorted);
    sorted
  }

  /** Each row as the entry `get_all_entries` builds from it, in the same order. */
  function Entries(rows: seq<Row>): (r: seq<Entry>)
    ensures |r| == |rows|
    ensures forall i :: 0 <= i < |rows| ==> r[i] == ToEntry(rows[i])
  {
    seq(|rows|, i requires 0 <= i < |rows| => ToEntry(rows[i]))
  }

  /** Building entries row by row around one row `m`. */
  lemma EntriesSplit(l: seq<Row>, m: Row, r: seq<Row>)
    ensures Entries(l + [m] + r) == Entries(l) + [ToEntry(m)] + Entries(r)
    ensures Entries(l + r) == Entries(l) + Entries(r)
  {
  }

  /** Leaving row `j` out leaves one copy of its entry out. */
  lemma EntriesRemove(b: seq<Row>, j: nat, rest: seq<Row>)
    requires j < |b| && rest == b[..j] + b[j + 1..]
    ensures multiset(Entries(b)) == multiset(Entries(rest)) + multiset{ToEntry(b[j])}
  {
    var l, m, r := b[..j], b[j], b[j + 1..];
    assert b == l + [m] + r;
    EntriesSplit(l, m, r);
  }

  /** Rows that are a permutation of each other build entries that are a permutation
      of each other. */
  lemma {:induction false} EntriesPermutation(a: seq<Row>, b: seq<Row>)
    requires multiset(a) == multiset(b)
    ensures multiset(Entries(a)) == multiset(Entries(b))
    decreases |a|
  {
    if a == [] {
      assert |b| == |multiset(b)| == 0;
    } else {
      var x := a[0];
      assert x in multiset(b) by {
        assert x in multiset(a);
      }
      var j :| 0 <= j < |b| && b[j] == x;
      var a' := a[1..];
      var b' := b[..j] + b[j + 1..];
      assert multiset(a') == multiset(b') by {
        assert a[..0] + a[1..] == a';
        Seqs.MultisetRemove(a, 0, a');
        Seqs.MultisetRemove(b, j, b');
        Seqs.MultisetCancel(multiset(a'), multiset(b'), x);
      }
      EntriesPermutation(a', b');
      assert multiset(Entries(a)) == multiset(Entries(a')) + multiset{ToEntry(x)} by {
        assert a[..0] + a[1..] == a';
        EntriesRemove(a, 0, a');
      }
      assert multiset(Entries(b)) == multiset(Entries(b')) + multiset{ToEntry(x)} by {
        EntriesRemove(b, j, b');
      }
    }
  }

  /** The entries built from rows are exactly the images of those rows. */
  lemma EntriesMembership(rows: seq<Row>)
    ensures forall x :: x in Entries(rows) <==> exists row :: row in rows && x == ToEntry(row)
  {
    var r := Entries(rows);
    forall x ensures x in r <==> exists row :: row in rows && x == ToEntry(row) {
      if x in r {
        var i :| 0 <= i < |r| && r[i] == x;
        assert rows[i] in rows;
      }
      if exists row :: row in rows && x == ToEntry(row) {
        var row :| row in rows && x == ToEntry(row);
        var i :| 0 <= i < |rows| && rows[i] == row;
        assert r[i] == x;
      }
    }
  }

  /** `get_all_entries`: every row as an entry, newest update first; `[]` on any error. */
  function GetAllEntries(t: Table, fault: bool): (r: seq<Entry>)
    ensures fault ==> r == []
    ensures !fault ==> |r| == |t.rows|
    ensures !fault ==> multiset(r) == multiset(Entries(t.rows))
    ensures !fault ==> forall x :: x in r <==> exists row :: row in t.rows && x == ToEntry(row)
    ensures !fault ==> forall i :: 0 <= i < |r| ==> r[i].id.Some? && r[i].updatedAt.Some?
    ensures !fault ==> forall i, j :: 0 <= i < j < |r| ==> r[i].updatedAt.value >= r[j].updatedAt.value
  {
    if fault then []
    else
      var rows := ListRows(t);
      EntriesMembership(rows);
      EntriesPermutation(rows, t.rows);
      Entries(rows)
  }

  /** `update_entry`: overwrites the six editable fields of the row whose id is the
      entry's id; `created_at` and `created_by` stay, and the update trigger sets
      `updated_at` to `now`. `True` iff such a row exists; `False` on error. */
  function UpdateEntry(t: Table, e: Entry, now: int, fault: bool): (r: (Table, bool))
    ensures r.1 <==> !fault && e.id.Some? && e.id.value in Ids(t)
    ensures !r.1 ==> r.0 == t
    ensures r.0.lastId == t.lastId && |r.0.rows| == |t.rows|
    ensures Valid(t) ==> Valid(r.0)
    ensures r.1 ==> forall i :: 0 <= i < |t.rows| ==>
      var old_ := t.rows[i];
      var new_ := r.0.rows[i];
      if old_.id == e.id.value then
        new_ == old_.(name := e.name, email := e.email, phone := e.phone, company := e.company,
                      position := e.position, notes := e.notes, updatedAt := now)
      else new_ == old_
  {
    if fault || e.id.None? || e.id.value !in Ids(t) then (t, false)
    else (Table(UpdateAll(t.rows, e, now), t.lastId), true)
  }

  /** `UPDATE ... WHERE id = ?` over every row that carries the id (on a valid
      table there is exactly one). Ids and creation fields are untouched. */
  function UpdateAll(rows: seq<Row>, e: Entry, now: int): (r: seq<Row>)
    requires e.id.Some?
    ensures |r| == |rows|
    ensures forall i :: 0 <= i < |rows| ==>
      if rows[i].id == e.id.value then
        r[i] == rows[i].(name := e.name, email := e.email, phone := e.phone, company := e.company,
                         position := e.position, notes := e.notes, updatedAt := now)
      else r[i] == rows[i]
  {
    seq(|rows|, i requires 0 <= i < |rows| =>
      if rows[i].id == e.id.value then
        rows[i].(name := e.name, email := e.email, phone := e.phone, company := e.company,
                 position := e.position, notes := e.notes, updatedAt := now)
      else rows[i])
  }

  /** `delete_entry`: removes the row with that id and nothing else; `True` iff it existed. */
  function DeleteEntry(t: Table, id: Option<int>, fault: bool): (r: (Table, bool))
    requires Valid(t)
    ensures r.1 <==> !fault && id.Some? && id.value in Ids(t)
    ensures !r.1 ==> r.0 == t
    ensures Valid(r.0) && r.0.lastId == t.lastId
    ensures r.1 ==> Ids(r.0) == Ids(t) - {id.value} && |r.0.rows| == |t.rows| - 1
    ensures r.1 ==> forall row :: row in t.rows && row.id != id.value ==> row in r.0.rows
    ensures forall row :: row in r.0.rows ==> row in t.rows
  {
    if fault || id.None? then (t, false)
    else match Find(t.rows, id.value)
      case None => (t, false)
      case Some(i) =>
        RemoveAtKeepsOthers(t, i);
        (Table(RemoveAt(t.rows, i), t.lastId), true)
  }

  /** The rows with the one at position `i` taken out. */
  function RemoveAt(rows: seq<Row>, i: nat): (r: seq<Row>)
    requires i < |rows|
    ensures |r| == |rows| - 1
    ensures forall j :: 0 <= j < i ==> r[j] == rows[j]
    ensures forall j :: i <= j < |r| ==> r[j] == rows[j + 1]
  {
    rows[..i] + rows[i + 1..]
  }

  /** Removing the row at `i` of a valid table keeps exactly the rows with other ids. */
  lemma RemoveAtMembership(t: Table, i: nat)
    requires Valid(t) && i < |t.rows|
    ensures forall row :: row in RemoveAt(t.rows, i) <==> row in t.rows && row.id != t.rows[i].id
  {
    var rows' := RemoveAt(t.rows, i);
    forall row ensures row in rows' <==> row in t.rows && row.id != t.rows[i].id {
      if row in rows' {
        var j :| 0 <= j < |rows'| && rows'[j] == row;
        if j < i { assert t.rows[j] == row; } else { assert t.rows[j + 1] == row; }
      }
      if row in t.rows && row.id != t.rows[i].id {
        var j :| 0 <= j < |t.rows| && t.rows[j] == row;
        assert j != i;
        if j < i { assert rows'[j] == row; } else { assert rows'[j - 1] == row; }
      }
    }
  }

  /** Removing the row at `i` of a valid table keeps it valid. */
  lemma RemoveAtValid(t: Table, i: nat)
    requires Valid(t) && i < |t.rows|
    ensures Valid(Table(RemoveAt(t.rows, i), t.lastId))
  {
    var rows' := RemoveAt(t.rows, i);
    forall a, b | 0 <= a < b < |rows'| ensures rows'[a].id < rows'[b].id {
      var a' := if a < i then a else a + 1;
      var b' := if b < i then b else b + 1;
      assert rows'[a] == t.rows[a'] && rows'[b] == t.rows[b'];
    }
  }

  /** Removing the row at `i` of a valid table removes exactly its id and keeps the table valid. */
  lemma RemoveAtKeepsOthers(t: Table, i: nat)
    requires Valid(t) && i < |t.rows|
    ensures var t' := Table(RemoveAt(t.rows, i), t.lastId);
      && Valid(t')
      && Ids(t') == Ids(t) - {t.rows[i].id}
      && (forall row :: row in t'.rows <==> row in t.rows && row.id != t.rows[i].id)
  {
    RemoveAtMembership(t, i);
    RemoveAtValid(t, i);
    var t' := Table(RemoveAt(t.rows, i), t.lastId);
    forall x ensures x in Ids(t') <==> x in Ids(t) - {t.rows[i].id} {
      if x in Ids(t) - {t.rows[i].id} {
        var row :| row in t.rows && row.id == x;
        assert row in t'.rows;
      }
    }
  }

  /** `get_entry_count`: the number of rows, or 0 on error. */
  function GetEntryCount(t: Table, fault: bool): (r: nat)
    ensures fault ==> r == 0
    ensures !fault ==> r == |t.rows|
  {
    if fault then 0 else |t.rows|
  }

  /** The count and the listing agree on the same table state. */
  lemma CountMatchesListing(t: Table, fault: bool)
    ensures GetEntryCount(t, fault) == |GetAllEntries(t, fault)|
  {
  }

  /** Ids are not reused after a delete: the id the next create hands out differs from
      every id the table held before the delete, the deleted one included. */
  lemma IdsNeverReused(t: Table, e: Entry, now: int, victim: Option<int>)
    requires Valid(t)
    requires DeleteEntry(t, victim, false).1
    ensures var t' := DeleteEntry(t, victim, false).0;
      CreateEntry(t', e, now, false).Ok? ==>
        CreateEntry(t', e, now, false).value.1 !in Ids(t) &&
        CreateEntry(t', e, now, false).value.1 > victim.value
  {
  }

  /** No row is created at a later time than it was last updated, as long as the
      clock does not run backwards past a stored timestamp. */
  predicate TimesOrdered(t: Table) {
    forall i :: 0 <= i < |t.rows| ==> t.rows[i].createdAt <= t.rows[i].updatedAt
  }

  predicate ClockNotBehind(t: Table, now: int) {
    forall i :: 0 <= i < |t.rows| ==> t.rows[i].updatedAt <= now
  }

  /** Creation and update keep `created_at <= updated_at` under a clock that does not go back. */
  lemma TimesStayOrdered(t: Table, e: Entry, now: int)
    requires Valid(t) && TimesOrdered(t) && ClockNotBehind(t, now)
    ensures CreateEntry(t, e, now, false).Ok? ==> TimesOrdered(CreateEntry(t, e, now, false).value.0)
    ensures TimesOrdered(UpdateEntry(t, e, now, false).0)
  {
    var (u, ok) := UpdateEntry(t, e, now, false);
    if ok {
      forall i | 0 <= i < |u.rows| ensures u.rows[i].createdAt <= u.rows[i].updatedAt {
        assert t.rows[i].createdAt <= t.rows[i].updatedAt <= now;
      }
    }
  }

  /** In a two-row table the row updated later is listed first. */
  lemma LaterUpdateListedFirst(t: Table)
    requires |t.rows| == 2 && t.rows[0].updatedAt != t.rows[1].updatedAt
    ensures var newer := if t.rows[0].updatedAt > t.rows[1].updatedAt then t.rows[0] else t.rows[1];
      GetAllEntries(t, false)[0] == ToEntry(newer)
  {
    var l := GetAllEntries(t, false);
    assert ToEntry(t.rows[0]) in l && ToEntry(t.rows[1]) in l;
    assert l[0] in l && l[1] in l;
  }

  const Alice := DefaultEntry.(name := "Alice Smith", email := "alice@example.com")
  const Bob := DefaultEntry.(name := "Bob Jones")

  /** The worked scenario, creation part: Alice then Bob get ids 1 and 2, and Bob,
      the more recently written row, is listed first. */
  lemma ScenarioCreate()
    ensures var r1 := CreateEntry(EmptyTable, Alice, 100, false);
      && r1.Ok? && r1.value.1 == 1 && GetEntryCount(r1.value.0, false) == 1
      && var r2 := CreateEntry(r1.value.0, Bob, 200, false);
      && r2.Ok? && r2.value.1 == 2
      && GetAllEntries(r2.value.0, false)[0].name == "Bob Jones"
  {
    var t1 := CreateEntry(EmptyTable, Alice, 100, false).value.0;
    var t2 := CreateEntry(t1, Bob, 200, false).value.0;
    LaterUpdateListedFirst(t2);
  }

  /** The worked scenario, mutation part: updating Alice's phone lists her first,
      and deleting Bob leaves her as the only record. */
  lemma ScenarioUpdateDelete()
    ensures var t2 := CreateEntry(CreateEntry(EmptyTable, Alice, 100, false).value.0, Bob, 200, false).value.0;
      var (t3, ok3) := UpdateEntry(t2, Alice.(id := Some(1), phone := "555-0100"), 300, false);
      && ok3 && GetAllEntries(t3, false)[0].name == "Alice Smith"
      && var (t4, ok4) := DeleteEntry(t3, Some(2), false);
      && ok4 && GetEntryCount(t4, false) == 1 && GetAllEntries(t4, false)[0].name == "Alice Smith"
  {
    var t1 := CreateEntry(EmptyTable, Alice, 100, false).value.0;
    var t2 := CreateEntry(t1, Bob, 200, false).value.0;
    assert |t2.rows| == 2 && t2.rows[0].id == 1 && t2.rows[1].id == 2 && t2.rows[1].updatedAt == 200;
    assert 1 in Ids(t2) by { assert t2.rows[0] in t2.rows; }
    var (t3, ok3) := UpdateEntry(t2, Alice.(id := Some(1), phone := "555-0100"), 300, false);
    assert t3.rows[0].name == "Alice Smith" && t3.rows[0].updatedAt == 300;
    assert t3.rows[1].id == 2 && t3.rows[1].updatedAt == 200;
    LaterUpdateListedFirst(t3);
    assert 2 in Ids(t3) by { assert t3.rows[1] in t3.rows; }
    var (t4, ok4) := DeleteEntry(t3, Some(2), false);
    assert t4.rows[0] in t3.rows && t4.rows[0].id in Ids(t4);
    assert t4.rows[0] == t3.rows[0];
    SingleRowListed(t4);
  }

  /** A one-row table lists just that row. */
  lemma SingleRowListed(t: Table)
    requires |t.rows| == 1
    ensures GetAllEntries(t, false) == [ToEntry(t.rows[0])]
  {
    var l := GetAllEntries(t, false);
    assert l[0] in l;
  }
}

=== FILE: sync.dfy ===
/** `DatabaseSyncHandler` of `database/sync.py`: a file watcher and a polling
    timer that both raise one `database_changed` notification. The watcher and
    timer are abstract state; whether the database file exists, and its mtime,
    are supplied by the caller, as are the points where setup can raise. */
module Sync {
  import opened Base
  import opened ChangeDetector

  /** The poll timer: running or not, its period in milliseconds, and whether it fires once. */
  datatype Timer = Timer(active: bool, intervalMs: int, singleShot: bool)

  /** The handler's state. `watcher` is `None` before a watcher was built and otherwise
      the set of watched file paths; `emitted` counts `database_changed` emissions. */
  datatype Monitor = Monitor(
    monitoring: bool,
    watcher: Option<set<string>>,
    timer: Option<Timer>,
    detector: Detector,
    emitted: nat)

  /** Where `_setup_monitoring` raises: not at all, while building the watcher
      (nothing assigned yet), or while building the timer (watcher already assigned). */
  datatype SetupFault = NoFault | WatcherFault | TimerFault

  const PollIntervalMs := 30000

  /** What a freshly built watcher watches: the database path if the file exists.
      `QFileSystemWatcher.addPath` refuses a path that does not exist. */
  function WatchSet(dbPath: string, fileExists: bool): set<string> {
    if fileExists then {dbPath} else {}
  }

  predicate TimerActive(m: Monitor) {
    m.timer.Some? && m.timer.value.active
  }

  function Watched(m: Monitor): set<string> {
    if m.watcher.Some? then m.watcher.value else {}
  }

  /** `_setup_monitoring`. */
  function Setup(m: Monitor, dbPath: string, fileExists: bool, fault: SetupFault): (r: Monitor)
    ensures m.monitoring ==> r == m
    ensures !m.monitoring && fault == NoFault ==>
      && r.monitoring
      && r.watcher == Some(WatchSet(dbPath, fileExists))
      && r.timer == Some(Timer(true, PollIntervalMs, false))
    ensures fault != NoFault ==> r.monitoring == m.monitoring && r.timer == m.timer
    ensures r.detector == m.detector && r.emitted == m.emitted
  {
    if m.monitoring then m
    else match fault
      case WatcherFault => m
      case TimerFault => m.(watcher := Some(WatchSet(dbPath, fileExists)))
      case NoFault =>
        m.(watcher := Some(WatchSet(dbPath, fileExists)),
           timer := Some(Timer(true, PollIntervalMs, false)),
           monitoring := true)
  }

  /** `DatabaseSyncHandler(...)`: nothing built yet, then one setup attempt. */
  function NewHandler(dbPath: string, fileExists: bool, fault: SetupFault): (r: Monitor)
    ensures r.monitoring <==> fault == NoFault
    ensures r.emitted == 0 && r.detector == Fresh
    ensures fault == NoFault ==> Watched(r) == WatchSet(dbPath, fileExists) && TimerActive(r)
    ensures fault == WatcherFault ==> r.watcher.None? && r.timer.None?
  {
    Setup(Monitor(false, None, None, Fresh, 0), dbPath, fileExists, fault)
  }

  /** `_on_file_changed(path)`: an event for the database path emits once and, when the
      watcher has lost every path, adds the path back (which only takes if the file exists). */
  function OnFileChanged(m: Monitor, dbPath: string, path: string, fileExists: bool): (r: Monitor)
    ensures path != dbPath ==> r == m
    ensures path == dbPath ==> r.emitted == m.emitted + 1
    ensures path == dbPath && m.watcher == Some({}) ==> r.watcher == Some(WatchSet(dbPath, fileExists))
    ensures m.watcher != Some({}) ==> r.watcher == m.watcher
    ensures r.monitoring == m.monitoring && r.timer == m.timer && r.detector == m.detector
  {
    if path != dbPath then m
    else
      var m1 := m.(emitted := m.emitted + 1);
      if m1.watcher == Some({}) then m1.(watcher := Some(WatchSet(path, fileExists))) else m1
  }

  /** `_check_for_changes`: one poll of the change detector; emits iff it reports a change. */
  function PollTick(m: Monitor, current: Option<int>): (r: Monitor)
    ensures r.emitted == m.emitted + (if HasChanged(m.detector, current).0 then 1 else 0)
    ensures r.detector == HasChanged(m.detector, current).1
    ensures r.monitoring == m.monitoring && r.watcher == m.watcher && r.timer == m.timer
  {
    var (changed, d') := HasChanged(m.detector, current);
    m.(detector := d', emitted := if changed then m.emitted + 1 else m.emitted)
  }

  /** `start_monitoring`. */
  function StartMonitoring(m: Monitor, dbPath: string, fileExists: bool, fault: SetupFault): (r: Monitor)
    ensures m.monitoring ==> r == m
    ensures !m.monitoring ==> r == Setup(m, dbPath, fileExists, fault)
  {
    if !m.monitoring then Setup(m, dbPath, fileExists, fault) else m
  }

  /** `stop_monitoring`: stops an active timer, empties a watcher, clears the flag. */
  function StopMonitoring(m: Monitor): (r: Monitor)
    ensures !r.monitoring && !TimerActive(r) && Watched(r) == {}
    ensures r.watcher.Some? <==> m.watcher.Some?
    ensures r.timer.Some? <==> m.timer.Some?
    ensures r.detector == m.detector && r.emitted == m.emitted
  {
    m.(timer := if TimerActive(m) then Some(m.timer.value.(active := false)) else m.timer,
       watcher := if m.watcher.Some? then Some({}) else None,
       monitoring := false)
  }

  /** `refresh_file_path`: with a watcher, watch exactly the database path if it exists. */
  function RefreshFilePath(m: Monitor, dbPath: string, fileExists: bool): (r: Monitor)
    ensures m.watcher.None? ==> r == m
    ensures m.watcher.Some? ==> r.watcher == Some(WatchSet(dbPath, fileExists))
    ensures r.monitoring == m.monitoring && r.timer == m.timer && r.emitted == m.emitted
  {
    if m.watcher.None? then m else m.(watcher := Some(WatchSet(dbPath, fileExists)))
  }

  /** Starting twice is starting once, whatever the second attempt would hit. */
  lemma StartIdempotent(m: Monitor, dbPath: string, fileExists: bool, f1: SetupFault, f2: SetupFault)
    requires f1 == NoFault
    ensures var once := StartMonitoring(m, dbPath, fileExists, f1);
      StartMonitoring(once, dbPath, fileExists, f2) == once
  {
  }

  /** Stopping twice is stopping once, and stopping a handler whose setup failed is safe. */
  lemma StopIdempotent(m: Monitor)
    ensures StopMonitoring(StopMonitoring(m)) == StopMonitoring(m)
  {
  }

  /** A setup that raised leaves the handler not monitoring; a later start can still succeed. */
  lemma FailedSetupRecovers(dbPath: string, fileExists: bool, fault: SetupFault)
    requires fault != NoFault
    ensures !NewHandler(dbPath, fileExists, fault).monitoring
    ensures StartMonitoring(NewHandler(dbPath, fileExists, fault), dbPath, fileExists, NoFault).monitoring
  {
  }

  /** Self-healing: when the watcher has dropped the file, an event for the database
      path re-registers it as long as the file is there. */
  lemma WatchReRegistered(m: Monitor, dbPath: string)
    requires m.watcher == Some({})
    ensures Watched(OnFileChanged(m, dbPath, dbPath, true)) == {dbPath}
  {
  }

  /** The two channels do not deduplicate: a file event leaves the poll baseline alone,
      so one modification of the file is signalled by the event and again by the next poll. */
  lemma OneChangeSignalledTwice(m: Monitor, dbPath: string, m0: int, m1: int)
    requires m.detector == Detector(Some(m0)) && m0 != m1
    ensures PollTick(OnFileChanged(m, dbPath, dbPath, true), Some(m1)).emitted == m.emitted + 2
  {
  }

  /** With only the poll channel, a change of mtime is signalled on the first tick
      after it and not on the next one. */
  lemma PollSignalsChangeOnce(m: Monitor, m0: int, m1: int)
    requires m.detector == Detector(Some(m0)) && m0 != m1
    ensures PollTick(m, Some(m1)).emitted == m.emitted + 1
    ensures PollTick(PollTick(m, Some(m1)), Some(m1)).emitted == m.emitted + 1
  {
  }

  /** Right after a successful setup, refreshing the watched path changes nothing. */
  lemma RefreshAfterSetupChangesNothing(dbPath: string, fileExists: bool)
    ensures RefreshFilePath(NewHandler(dbPath, fileExists, NoFault), dbPath, fileExists)
            == NewHandler(dbPath, fileExists, NoFault)
  {
  }

  /** Refreshing twice is refreshing once. */
  lemma RefreshIdempotent(m: Monitor, dbPath: string, fileExists: bool)
    ensures RefreshFilePath(RefreshFilePath(m, dbPath, fileExists), dbPath, fileExists)
            == RefreshFilePath(m, dbPath, fileExists)
  {
  }

  /** `stop_monitoring` keeps the watcher object, so a later refresh watches the file
      again while the handler reports that it is not monitoring. */
  lemma RefreshAfterStopRewatches(m: Monitor, dbPath: string)
    requires m.watcher.Some?
    ensures var r := RefreshFilePath(StopMonitoring(m), dbPath, true);
      !r.monitoring && Watched(r) == {dbPath}
  {
  }
}

=== FILE: text.dfy ===
/** The string primitives the application leans on: `str.strip`, `str.lower`,
    the `in` substring test, ASCII character classes and the decimal rendering
    of counts. Characters are treated as ASCII where Python would consult the
    Unicode database. */
module Text {
  import opened Base

  /** Characters `str.isspace` accepts in the ASCII range:
      space, tab through carriage return, and the four separators 0x1C-0x1F. */
  predicate IsSpace(c: char) {
    c == ' ' || ('\U{9}' <= c <= '\U{D}') || ('\U{1C}' <= c <= '\U{1F}')
  }

  predicate IsAsciiDigit(c: char) {
    '0' <= c <= '9'
  }

  predicate IsAsciiLetter(c: char) {
    ('a' <= c <= 'z') || ('A' <= c <= 'Z')
  }

  /** Every character of `s` satisfies `p`. */
  predicate All(s: string, p: char -> bool) {
    forall k :: 0 <= k < |s| ==> p(s[k])
  }

  /** `s.lstrip()`: drops the leading whitespace and nothing else. */
  function TrimStart(s: string): (r: string)
    ensures |r| <= |s| && r == s[|s| - |r|..]
    ensures forall k :: 0 <= k < |s| - |r| ==> IsSpace(s[k])
    ensures r == [] || !IsSpace(r[0])
    decreases |s|
  {
    if s == [] || !IsSpace(s[0]) then s else TrimStart(s[1..])
  }

  /** `s.rstrip()`: drops the trailing whitespace and nothing else. */
  function TrimEnd(s: string): (r: string)
    ensures |r| <= |s| && r == s[..|r|]
    ensures forall k :: |r| <= k < |s| ==> IsSpace(s[k])
    ensures r == [] || !IsSpace(r[|r| - 1])
    decreases |s|
  {
    if s == [] || !IsSpace(s[|s| - 1]) then s else TrimEnd(s[..|s| - 1])
  }

  /** A prefix `r` of a suffix `t` of `s`, followed in `t` by whitespace only, is a slice
      of `s` followed in `s` by whitespace only. */
  lemma SliceOfSlice(s: string, t: string, r: string)
    requires |t| <= |s| && t == s[|s| - |t|..]
    requires |r| <= |t| && r == t[..|r|]
    requires forall k :: |r| <= k < |t| ==> IsSpace(t[k])
    ensures var i := |s| - |t|;
      && r == s[i..i + |r|]
      && (forall k :: i + |r| <= k < |s| ==> IsSpace(s[k]))
  {
    var i := |s| - |t|;
    forall k | i + |r| <= k < |s|
      ensures IsSpace(s[k])
    {
      assert s[k] == t[k - i];
    }
  }

  /** `s` is `r` at offset `i` with only whitespace before and after it. */
  predicate Padded(s: string, r: string, i: int) {
    && 0 <= i <= |s| - |r| && s[i..i + |r|] == r
    && (forall k :: 0 <= k < i ==> IsSpace(s[k]))
    && (forall k :: i + |r| <= k < |s| ==> IsSpace(s[k]))
  }

  /** `s.strip()`: `s` with a leading and a trailing run of whitespace removed, and
      nothing else. */
  function Strip(s: string): (r: string)
    ensures |r| <= |s|
    ensures r == [] <==> forall k :: 0 <= k < |s| ==> IsSpace(s[k])
    ensures r != [] ==> !IsSpace(r[0]) && !IsSpace(r[|r| - 1])
    ensures exists i :: Padded(s, r, i)
  {
    var t := TrimStart(s);
    var r := TrimEnd(t);
    assert r == [] ==> t == [];
    SliceOfSlice(s, t, r);
    assert Padded(s, r, |s| - |t|);
    r
  }

  /** The string is empty or all whitespace. */
  predicate IsBlank(s: string) {
    forall k :: 0 <= k < |s| ==> IsSpace(s[k])
  }

  /** `not s.strip()` is exactly `IsBlank(s)`. */
  lemma BlankIffStripEmpty(s: string)
    ensures IsBlank(s) <==> Strip(s) == []
  {
  }

  /** Stripping twice is stripping once. */
  lemma StripIdempotent(s: string)
    ensures Strip(Strip(s)) == Strip(s)
  {
    var r := Strip(s);
    if r != [] {
      assert TrimStart(r) == r;
      assert TrimEnd(r) == r;
    }
  }

  /** `c.lower()` on ASCII: upper-case letters move to lower case, everything else stays. */
  function LowerChar(c: char): char {
    if 'A' <= c <= 'Z' then (c as int + 32) as char else c
  }

  /** `s.lower()`, character by character. */
  function Lower(s: string): (r: string)
    ensures |r| == |s|
    ensures forall k :: 0 <= k < |s| ==> r[k] == LowerChar(s[k])
  {
    seq(|s|, k requires 0 <= k < |s| => LowerChar(s[k]))
  }

  predicate StartsWith(s: string, prefix: string) {
    |prefix| <= |s| && s[..|prefix|] == prefix
  }

  /** `needle in hay`, searched left to right; the empty needle occurs everywhere. */
  predicate Contains(hay: string, needle: string)
    decreases |hay|
  {
    StartsWith(hay, needle) || (hay != [] && Contains(hay[1..], needle))
  }

  /** `needle` sits in `hay` at offset `i`. */
  predicate OccursAt(hay: string, needle: string, i: int) {
    0 <= i && i + |needle| <= |hay| && hay[i..i + |needle|] == needle
  }

  /** The substring test holds exactly when the needle sits at some offset of the haystack. */
  lemma {:induction false} ContainsIffOccurs(hay: string, needle: string)
    ensures Contains(hay, needle) <==> exists i :: OccursAt(hay, needle, i)
    decreases |hay|
  {
    if StartsWith(hay, needle) {
      assert OccursAt(hay, needle, 0);
    } else if hay != [] {
      ContainsIffOccurs(hay[1..], needle);
      if Contains(hay[1..], needle) {
        var i :| OccursAt(hay[1..], needle, i);
        assert hay[i + 1..i + 1 + |needle|] == hay[1..][i..i + |needle|];
        assert OccursAt(hay, needle, i + 1);
      }
      if exists i :: OccursAt(hay, needle, i) {
        var i :| OccursAt(hay, needle, i);
        assert i > 0;
        assert hay[1..][i - 1..i - 1 + |needle|] == hay[i..i + |needle|];
        assert OccursAt(hay[1..], needle, i - 1);
      }
    }
  }

  /** A string contains itself surrounded by anything. */
  lemma ContainsInfix(a: string, b: string, c: string)
    ensures Contains(a + b + c, b)
  {
    var s := a + b + c;
    assert s[|a|..|a| + |b|] == b;
    assert OccursAt(s, b, |a|);
    ContainsIffOccurs(s, b);
  }

  /** Position of the first occurrence of `c`, if any. */
  function IndexOf(s: string, c: char): (r: Option<nat>)
    ensures r.Some? ==> r.value < |s| && s[r.value] == c
    ensures forall k :: 0 <= k < |s| && (r.None? || k < r.value) ==> s[k] != c
    decreases |s|
  {
    if s == [] then None
    else if s[0] == c then Some(0)
    else match IndexOf(s[1..], c)
      case None => None
      case Some(i) => Some(i + 1)
  }

  /** Position of the last occurrence of `c`, if any. */
  function LastIndexOf(s: string, c: char): (r: Option<nat>)
    ensures r.Some? ==> r.value < |s| && s[r.value] == c
    ensures forall k :: 0 <= k < |s| && (r.None? || k > r.value) ==> s[k] != c
    decreases |s|
  {
    if s == [] then None
    else if s[|s| - 1] == c then Some(|s| - 1)
    else LastIndexOf(s[..|s| - 1], c)
  }

  // ---------------------------------------------------------------------
  // Decimal rendering of counts, as `f"{n}"` does for a non-negative int.
  // ---------------------------------------------------------------------

  function DigitChar(d: nat): (c: char)
    requires d < 10
    ensures IsAsciiDigit(c)
  {
    "0123456789"[d]
  }

  function DigitValue(c: char): nat
    requires IsAsciiDigit(c)
  {
    c as int - '0' as int
  }

  /** `str(n)` for `n >= 0`: the shortest decimal numeral. */
  function NatToString(n: nat): (r: string)
    ensures |r| >= 1 && All(r, IsAsciiDigit)
    ensures |r| > 1 ==> r[0] != '0'
    decreases n
  {
    if n < 10 then [DigitChar(n)] else NatToString(n / 10) + [DigitChar(n % 10)]
  }

  /** The value of a numeral made only of digits (most significant first). */
  function DigitsValue(s: string): nat
    requires All(s, IsAsciiDigit)
    decreases |s|
  {
    if s == [] then 0 else DigitsValue(s[..|s| - 1]) * 10 + DigitValue(s[|s| - 1])
  }

  /** Reading back the numeral that `NatToString` prints gives the number. */
  lemma {:induction false} NatToStringRoundTrip(n: nat)
    ensures DigitsValue(NatToString(n)) == n
    decreases n
  {
    if n >= 10 {
      var s := NatToString(n);
      NatToStringRoundTrip(n / 10);
      assert s[..|s| - 1] == NatToString(n / 10);
      assert DigitValue(DigitChar(n % 10)) == n % 10;
    } else {
      assert DigitValue(DigitChar(n)) == n;
    }
  }

  /** Number of leading digit characters of `s`. */
  function LeadingDigits(s: string): (r: nat)
    ensures r <= |s| && All(s[..r], IsAsciiDigit)
    ensures r < |s| ==> !IsAsciiDigit(s[r])
    decreases |s|
  {
    if s == [] || !IsAsciiDigit(s[0]) then 0 else 1 + LeadingDigits(s[1..])
  }

  /** The value of the leading run of digits of `s` (0 when there is none). */
  function LeadingNumber(s: string): nat {
    DigitsValue(s[..LeadingDigits(s)])
  }

  /** A run of digits followed by a non-digit is read up to the non-digit. */
  lemma {:induction false} LeadingDigitsOfNumeral(d: string, rest: string)
    requires All(d, IsAsciiDigit)
    requires rest == [] || !IsAsciiDigit(rest[0])
    ensures LeadingDigits(d + rest) == |d|
    decreases |d|
  {
    if d != [] {
      assert (d + rest)[1..] == d[1..] + rest;
      LeadingDigitsOfNumeral(d[1..], rest);
    } else {
      assert d + rest == rest;
    }
  }
}

=== FILE: validators.dfy ===
/** The input validators of `utils/validators.py`. Each returns an `(ok, message)`
    pair; the message is present exactly when the check fails. */
module Validators {
  import opened Base
  import opened Text
  import Seqs

  datatype Verdict = Verdict(ok: bool, message: Option<string>)

  const Valid := Verdict(true, None)

  function Invalid(message: string): Verdict {
    Verdict(false, Some(message))
  }

  const InvalidEmailMessage := "Invalid email format"
  const PhoneMessage := "Phone number must contain at least 10 digits"
  const NameRequiredMessage := "Name is required"
  const NameTooShortMessage := "Name must be at least 2 characters long"
  const NameTooLongMessage := "Name must be less than 100 characters"
  const MinPhoneDigits := 10
  const MinNameLength := 2
  const MaxNameLength := 100

  // ---------------------------------------------------------------------
  // Email: ^[a-zA-Z0-9._%+-]+@[a-zA-Z0-9.-]+\.[a-zA-Z]{2,}$ under re.match
  // ---------------------------------------------------------------------

  /** The character class of the local part, `[a-zA-Z0-9._%+-]`. */
  predicate IsLocalChar(c: char) {
    IsAsciiLetter(c) || IsAsciiDigit(c) || c == '.' || c == '_' || c == '%' || c == '+' || c == '-'
  }

  /** The character class of the domain part, `[a-zA-Z0-9.-]`. */
  predicate IsDomainChar(c: char) {
    IsAsciiLetter(c) || IsAsciiDigit(c) || c == '.' || c == '-'
  }

  /** `s` splits as local `@` domain `.` tld with `@` at `at` and the final `.` at `dot`. */
  predicate EmailSplit(s: string, at: int, dot: int) {
    && 0 < at && at + 1 < dot && dot + 2 < |s|
    && s[at] == '@' && s[dot] == '.'
    && All(s[..at], IsLocalChar)
    && All(s[at + 1..dot], IsDomainChar)
    && All(s[dot + 1..], IsAsciiLetter)
  }

  /** The whole of `s` is matched by the email pattern (the reference definition). */
  ghost predicate EmailShape(s: string) {
    exists at, dot :: EmailSplit(s, at, dot)
  }

  /** What `re.match` with a trailing `$` accepts: a full match, or a full match
      followed by one final newline, because Python's `$` also matches just
      before a newline that ends the string. */
  ghost predicate EmailPatternMatches(s: string) {
    EmailShape(s) || (|s| > 0 && s[|s| - 1] == '\n' && EmailShape(s[..|s| - 1]))
  }

  /** A single left-to-right scan deciding the pattern: the local part runs up to
      the first `@`, and the top-level domain starts after the last `.`. */
  function MatchEmail(s: string): bool {
    match IndexOf(s, '@')
    case None => false
    case Some(at) =>
      var rest := s[at + 1..];
      match LastIndexOf(rest, '.')
      case None => false
      case Some(d) =>
        && 0 < at && 0 < d && d + 3 <= |rest|
        && All(s[..at], IsLocalChar)
        && All(rest, IsDomainChar)
        && All(rest[d + 1..], IsAsciiLetter)
  }

  /** Whatever the scan accepts has the pattern's shape. */
  lemma MatchEmailSound(s: string)
    requires MatchEmail(s)
    ensures EmailShape(s)
  {
    var at := IndexOf(s, '@').value;
    var rest := s[at + 1..];
    var d := LastIndexOf(rest, '.').value;
    assert s[at + 1..at + 1 + d] == rest[..d];
    assert All(rest[..d], IsDomainChar);
    assert s[at + 1 + d + 1..] == rest[d + 1..];
    assert EmailSplit(s, at, at + 1 + d);
  }

  /** In a string of the pattern's shape the first `@` is the split's `@`. */
  lemma FirstAtOfShape(s: string, at: int, dot: int)
    requires EmailSplit(s, at, dot)
    ensures IndexOf(s, '@') == Some(at)
  {
    forall k | 0 <= k < at ensures s[k] != '@' {
      assert IsLocalChar(s[..at][k]);
    }
  }

  /** In a string of the pattern's shape the domain part after `@` ends at its last `.`. */
  lemma LastDotOfShape(s: string, at: int, dot: int)
    requires EmailSplit(s, at, dot)
    ensures LastIndexOf(s[at + 1..], '.') == Some(dot - at - 1)
    ensures All(s[at + 1..], IsDomainChar)
  {
    var rest := s[at + 1..];
    var d := dot - at - 1;
    assert rest[d] == '.';
    forall k | d < k < |rest| ensures rest[k] != '.' && IsDomainChar(rest[k]) {
      assert rest[k] == s[dot + 1..][k - d - 1];
    }
    forall k | 0 <= k < d ensures IsDomainChar(rest[k]) {
      assert rest[k] == s[at + 1..dot][k];
    }
  }

  /** Every string of the pattern's shape is accepted by the scan. */
  lemma MatchEmailComplete(s: string)
    requires EmailShape(s)
    ensures MatchEmail(s)
  {
    var at, dot :| EmailSplit(s, at, dot);
    FirstAtOfShape(s, at, dot);
    LastDotOfShape(s, at, dot);
    assert s[at + 1..][dot - at..] == s[dot + 1..];
  }

  /** The scan accepts exactly the strings the pattern matches in full. */
  lemma MatchEmailCorrect(s: string)
    ensures MatchEmail(s) <==> EmailShape(s)
  {
    if MatchEmail(s) {
      MatchEmailSound(s);
    }
    if EmailShape(s) {
      MatchEmailComplete(s);
    }
  }

  /** `Validator.validate_email`. */
  function ValidateEmail(email: string): (r: Verdict)
    ensures r.ok <==> r.message.None?
    ensures IsBlank(email) ==> r == Valid
    ensures !IsBlank(email) ==> (r.ok <==> EmailPatternMatches(email))
    ensures !r.ok ==> r.message == Some(InvalidEmailMessage)
  {
    MatchEmailCorrect(email);
    if IsBlank(email) then Valid
    else if MatchEmail(email) then Valid
    else if |email| > 0 && email[|email| - 1] == '\n' && MatchEmail(email[..|email| - 1]) then
      MatchEmailCorrect(email[..|email| - 1]);
      Valid
    else
      MatchEmailCorrect(email[..|email| - 1]);
      Invalid(InvalidEmailMessage)
  }

  /** A plain address passes, and so does the same address followed by one newline. */
  lemma EmailAcceptsTrailingNewline()
    ensures ValidateEmail("alice@example.com").ok
    ensures ValidateEmail("alice@example.com\n").ok
  {
    var good := "alice@example.com";
    assert EmailSplit(good, 5, 13);
    assert !IsBlank(good) by { assert !IsSpace(good[0]); }
    var nl := "alice@example.com\n";
    assert nl[..|nl| - 1] == good;
    assert !IsBlank(nl) by { assert !IsSpace(nl[0]); }
  }

  /** A matching address starts with a local-part character. */
  lemma ShapeStartsWithLocalChar(s: string)
    ensures EmailShape(s) ==> |s| > 0 && IsLocalChar(s[0])
  {
    if EmailShape(s) {
      var at, dot :| EmailSplit(s, at, dot);
      assert s[..at][0] == s[0];
    }
  }

  /** The pattern is applied to the unstripped input: a leading space fails it. */
  lemma EmailRejectsLeadingSpace()
    ensures ValidateEmail(" alice@example.com") == Invalid(InvalidEmailMessage)
  {
    var spaced := " alice@example.com";
    assert !IsBlank(spaced) by { assert !IsSpace(spaced[1]); }
    ShapeStartsWithLocalChar(spaced);
    assert !IsLocalChar(spaced[0]);
    assert spaced[|spaced| - 1] != '\n';
    assert !EmailPatternMatches(spaced);
  }

  // ---------------------------------------------------------------------
  // Phone
  // ---------------------------------------------------------------------

  /** `re.sub(r'\D', '', phone)` on ASCII: the digits of `s` in order. */
  function DigitsOnly(s: string): (r: string)
    ensures All(r, IsAsciiDigit)
    ensures Seqs.IsSubsequence(r, s)
  {
    Seqs.FilterIsSubsequence(s, IsAsciiDigit);
    Seqs.Filter(s, IsAsciiDigit)
  }

  /** `re.sub(r'\D', '', phone)` drops nothing but non-digits: every digit of the input
      survives, as often as it occurs. */
  lemma DigitsOnlyKeepsEveryDigit(s: string)
    ensures forall k :: 0 <= k < |s| && IsAsciiDigit(s[k]) ==> multiset(DigitsOnly(s))[s[k]] == multiset(s)[s[k]]
  {
    Seqs.FilterMultiplicity(s, IsAsciiDigit);
  }

  /** `Validator.validate_phone`. */
  function ValidatePhone(phone: string): (r: Verdict)
    ensures r.ok <==> r.message.None?
    ensures IsBlank(phone) ==> r == Valid
    ensures !IsBlank(phone) ==> (r.ok <==> |DigitsOnly(phone)| >= MinPhoneDigits)
    ensures !r.ok ==> r.message == Some(PhoneMessage)
  {
    if IsBlank(phone) then Valid
    else if |DigitsOnly(phone)| >= MinPhoneDigits then Valid
    else Invalid(PhoneMessage)
  }

  /** A non-digit character contributes nothing to the digit string. */
  lemma DigitsOnlySkips(a: string, b: string, c: char)
    requires !IsAsciiDigit(c)
    ensures DigitsOnly(a + [c] + b) == DigitsOnly(a + b)
  {
    Seqs.FilterConcat(a + [c], b, IsAsciiDigit);
    Seqs.FilterConcat(a, [c], IsAsciiDigit);
    Seqs.FilterConcat(a, b, IsAsciiDigit);
    assert Seqs.Filter([c], IsAsciiDigit) == [];
  }

  /** Inserting a character into a string with a non-space keeps a non-space. */
  lemma NotBlankAfterInsert(a: string, b: string, c: char)
    requires !IsBlank(a + b)
    ensures !IsBlank(a + [c] + b)
  {
    var k :| 0 <= k < |a + b| && !IsSpace((a + b)[k]);
    if k < |a| {
      assert (a + [c] + b)[k] == (a + b)[k];
    } else {
      assert (a + [c] + b)[k + 1] == (a + b)[k];
    }
  }

  /** Separators are ignored: inserting one non-digit character anywhere into a
      non-blank phone number does not change the verdict. */
  lemma PhoneIgnoresNonDigits(a: string, b: string, c: char)
    requires !IsAsciiDigit(c)
    requires !IsBlank(a + b)
    ensures ValidatePhone(a + [c] + b) == ValidatePhone(a + b)
  {
    DigitsOnlySkips(a, b, c);
    NotBlankAfterInsert(a, b, c);
  }

  // ---------------------------------------------------------------------
  // Name and required fields
  // ---------------------------------------------------------------------

  /** `Validator.validate_name`: checks the stripped name's length. */
  function ValidateName(name: string): (r: Verdict)
    ensures r.ok <==> r.message.None?
    ensures r.ok <==> MinNameLength <= |Strip(name)| <= MaxNameLength
    ensures |Strip(name)| == 0 ==> r.message == Some(NameRequiredMessage)
    ensures |Strip(name)| == 1 ==> r.message == Some(NameTooShortMessage)
    ensures |Strip(name)| > MaxNameLength ==> r.message == Some(NameTooLongMessage)
  {
    var n := Strip(name);
    if n == [] then Invalid(NameRequiredMessage)
    else if |n| < MinNameLength then Invalid(NameTooShortMessage)
    else if |n| > MaxNameLength then Invalid(NameTooLongMessage)
    else Valid
  }

  /** Surrounding whitespace never changes the name verdict. */
  lemma NameIgnoresSurroundingSpace(name: string)
    ensures ValidateName(Strip(name)) == ValidateName(name)
  {
    StripIdempotent(name);
  }

  /** `Validator.validate_required_field`: fails exactly when every character is whitespace. */
  function ValidateRequiredField(value: string, fieldName: string): (r: Verdict)
    ensures r.ok <==> r.message.None?
    ensures r.ok <==> exists k :: 0 <= k < |value| && !IsSpace(value[k])
    ensures !r.ok ==> r.message == Some(fieldName + " is required")
  {
    if IsBlank(value) then Invalid(fieldName + " is required") else Valid
  }

  /** The name validator and the generic required-field check agree on a missing
      name, down to the wording of the message. */
  lemma MissingNameAgreement(name: string)
    ensures ValidateName(name).message == Some(NameRequiredMessage)
            <==> !ValidateRequiredField(name, "Name").ok
    ensures !ValidateRequiredField(name, "Name").ok
            ==> ValidateRequiredField(name, "Name") == ValidateName(name)
  {
    assert "Name" + " is required" == NameRequiredMessage;
  }
}

=== FILE: viewer.dfy ===
/** The `DataViewer` of `ui/data_viewer.py`: the loaded entries, the subset the
    search shows, in-place cell edits and deletion of selected rows.

    `filtered_data` holds the same `DataEntry` objects as `current_data`, so it is
    represented by positions into `current`: an edit made through a shown row is
    visible in `current` as well, exactly as the shared objects make it. Store
    failures are oracle flags, as in the `Store` module. */
module Viewer {
  import opened Base
  import opened Text
  import opened Models
  import opened Store
  import Seqs

  datatype ViewerState = ViewerState(current: seq<Entry>, view: seq<nat>, updating: bool)

  /** The shown rows are positions of `current`, in increasing order, each at most once. */
  predicate ViewOk(v: ViewerState) {
    && (forall k :: 0 <= k < |v.view| ==> v.view[k] < |v.current|)
    && (forall k, l :: 0 <= k < l < |v.view| ==> v.view[k] < v.view[l])
  }

  function AllIndices(n: nat): (r: seq<nat>)
    ensures |r| == n && forall k :: 0 <= k < n ==> r[k] == k
  {
    seq(n, k requires 0 <= k < n => k as nat)
  }

  /** The entries at positions `idx` of `c`. */
  function Pick(c: seq<Entry>, idx: seq<nat>): (r: seq<Entry>)
    requires forall k :: 0 <= k < |idx| ==> idx[k] < |c|
    ensures |r| == |idx| && forall k :: 0 <= k < |idx| ==> r[k] == c[idx[k]]
  {
    seq(|idx|, k requires 0 <= k < |idx| => c[idx[k]])
  }

  /** `filtered_data`. */
  function Shown(v: ViewerState): seq<Entry>
    requires ViewOk(v)
  {
    Pick(v.current, v.view)
  }

  lemma PickAll(c: seq<Entry>)
    ensures Pick(c, AllIndices(|c|)) == c
  {
  }

  // ---------------------------------------------------------------------
  // Loading and searching
  // ---------------------------------------------------------------------

  /** `refresh_data`: ignored while an edit is in progress; otherwise reloads every
      entry from the store and shows all of them, dropping any search filter. A failed
      read comes back as no entries at all. */
  function RefreshData(v: ViewerState, t: Table, fault: bool): (r: ViewerState)
    ensures v.updating ==> r == v
    ensures !v.updating ==> ViewOk(r) && !r.updating && r.current == GetAllEntries(t, fault)
    ensures !v.updating ==> Shown(r) == r.current
    ensures ViewOk(v) ==> ViewOk(r)
  {
    if v.updating then v
    else
      var entries := GetAllEntries(t, fault);
      PickAll(entries);
      ViewerState(entries, AllIndices(|entries|), false)
  }

  /** `DataViewer(...)`: starts empty and loads once. */
  function NewViewer(t: Table, fault: bool): (r: ViewerState)
    ensures ViewOk(r) && !r.updating
    ensures Shown(r) == r.current == GetAllEntries(t, fault)
  {
    RefreshData(ViewerState([], [], false), t, fault)
  }

  /** The search test of `filter_data` for an already lower-cased query: a substring
      of one of the six text fields, lower-cased. */
  predicate SearchHit(e: Entry, q: string) {
    || Contains(Lower(e.name), q)
    || Contains(Lower(e.email), q)
    || Contains(Lower(e.phone), q)
    || Contains(Lower(e.company), q)
    || Contains(Lower(e.position), q)
    || Contains(Lower(e.notes), q)
  }

  function Hit(q: string): Entry -> bool {
    e => SearchHit(e, q)
  }

  /** Positions `i..` of `c` whose entry passes `p`, in order. */
  function HitsFrom(c: seq<Entry>, p: Entry -> bool, i: nat): (r: seq<nat>)
    requires i <= |c|
    ensures forall k :: 0 <= k < |r| ==> i <= r[k] < |c|
    decreases |c| - i
  {
    if i == |c| then []
    else if p(c[i]) then [i] + HitsFrom(c, p, i + 1)
    else HitsFrom(c, p, i + 1)
  }

  /** The positions found are exactly those whose entry passes, each once, in increasing order. */
  lemma {:induction false} HitsFromExact(c: seq<Entry>, p: Entry -> bool, i: nat)
    requires i <= |c|
    ensures forall j :: j in HitsFrom(c, p, i) <==> i <= j < |c| && p(c[j])
    ensures forall k, l :: 0 <= k < l < |HitsFrom(c, p, i)| ==> HitsFrom(c, p, i)[k] < HitsFrom(c, p, i)[l]
    decreases |c| - i
  {
    if i < |c| {
      HitsFromExact(c, p, i + 1);
      var rest := HitsFrom(c, p, i + 1);
      if p(c[i]) {
        var r := [i] + rest;
        assert HitsFrom(c, p, i) == r;
        forall k, l | 0 <= k < l < |r| ensures r[k] < r[l] {
          assert r[l] == rest[l - 1];
          if k > 0 {
            assert r[k] == rest[k - 1];
          }
        }
      }
    }
  }

  /** `filter_data(text)`: a blank query shows everything; otherwise the entries the
      lower-cased, unstripped query hits, in their loaded order. */
  function FilterData(v: ViewerState, text: string): (r: ViewerState)
    ensures ViewOk(r) && r.current == v.current && r.updating == v.updating
    ensures IsBlank(text) ==> Shown(r) == v.current
    ensures !IsBlank(text) ==>
      forall i :: 0 <= i < |v.current| ==> (i in r.view <==> SearchHit(v.current[i], Lower(text)))
  {
    if IsBlank(text) then
      PickAll(v.current);
      v.(view := AllIndices(|v.current|))
    else
      HitsFromExact(v.current, Hit(Lower(text)), 0);
      v.(view := HitsFrom(v.current, Hit(Lower(text)), 0))
  }

  /** The positions found pick out exactly what the list comprehension keeps. */
  lemma {:induction false} HitsAgreeWithFilter(c: seq<Entry>, p: Entry -> bool, i: nat)
    requires i <= |c|
    ensures Pick(c, HitsFrom(c, p, i)) == Seqs.Filter(c[i..], p)
    decreases |c| - i
  {
    if i < |c| {
      HitsAgreeWithFilter(c, p, i + 1);
      var rest := HitsFrom(c, p, i + 1);
      var s := c[i..];
      assert s[1..] == c[i + 1..];
      FilterUnfold(s, p);
      if p(c[i]) {
        PickCons(c, i, rest);
      } else {
        assert HitsFrom(c, p, i) == rest;
      }
    }
  }

  lemma FilterUnfold(s: seq<Entry>, p: Entry -> bool)
    requires s != []
    ensures Seqs.Filter(s, p) == (if p(s[0]) then [s[0]] else []) + Seqs.Filter(s[1..], p)
  {
  }

  lemma PickCons(c: seq<Entry>, i: nat, rest: seq<nat>)
    requires i < |c| && forall k :: 0 <= k < |rest| ==> rest[k] < |c|
    ensures Pick(c, [i] + rest) == [c[i]] + Pick(c, rest)
  {
  }

  /** A non-blank search shows the same entries, in the same order, as
      `[e for e in current_data if hit(e)]`. */
  lemma FilterIsComprehension(v: ViewerState, text: string)
    requires !IsBlank(text)
    ensures Shown(FilterData(v, text)) == Seqs.Filter(v.current, Hit(Lower(text)))
  {
    HitsAgreeWithFilter(v.current, Hit(Lower(text)), 0);
    assert v.current[0..] == v.current;
  }

  /** The search is case-insensitive in the query: upper and lower case find the same rows. */
  lemma SearchIgnoresQueryCase(v: ViewerState, text: string)
    requires !IsBlank(text) && !IsBlank(Lower(text))
    ensures FilterData(v, Lower(text)).view == FilterData(v, text).view
  {
    assert Lower(Lower(text)) == Lower(text);
  }

  /** A reload after a search shows every entry again: the filter is not reapplied. */
  lemma RefreshDropsFilter(v: ViewerState, text: string, t: Table)
    requires !v.updating
    ensures Shown(RefreshData(FilterData(v, text), t, false)) == GetAllEntries(t, false)
  {
  }

  // ---------------------------------------------------------------------
  // The record count
  // ---------------------------------------------------------------------

  /** `update_count_label`: `"N records"` when nothing is hidden, else `"F of N records"`.
      The label opens with the number shown, followed by " of " exactly when some are hidden. */
  function CountLabel(total: nat, shown: nat): (l: string)
    ensures LeadingNumber(l) == shown
    ensures LeadingDigits(l) > 1 ==> l[0] != '0'
    ensures StartsWith(l[LeadingDigits(l)..], " of ") <==> shown != total
    ensures shown == total ==> l[LeadingDigits(l)..] == " records"
    ensures |l| >= 8 && l[|l| - 8..] == " records"
  {
    var d := NatToString(shown);
    var rest := if shown == total then " records" else " of " + NatToString(total) + " records";
    LabelReadsBack(d, rest, shown, total);
    d + rest
  }

  /** The reading-back argument for a label `d + rest` with `d` the numeral of `shown`. */
  lemma LabelReadsBack(d: string, rest: string, shown: nat, total: nat)
    requires d == NatToString(shown)
    requires rest == if shown == total then " records" else " of " + NatToString(total) + " records"
    ensures var l := d + rest;
      && LeadingDigits(l) == |d| && l[..|d|] == d && l[|d|..] == rest
      && LeadingNumber(l) == shown
      && (LeadingDigits(l) > 1 ==> l[0] != '0')
      && (StartsWith(rest, " of ") <==> shown != total)
  {
    var l := d + rest;
    assert l[..|d|] == d && l[|d|..] == rest;
    LeadingDigitsOfNumeral(d, rest);
    NatToStringRoundTrip(shown);
    if shown == total {
      assert rest[1] != " of "[1];
    } else {
      assert rest[..4] == " of ";
    }
  }

  function ViewerLabel(v: ViewerState): string {
    CountLabel(|v.current|, |v.view|)
  }

  /** A numeral followed by " records" reads back as its number. */
  lemma NumeralBeforeRecords(t: string, n: nat)
    requires t == NatToString(n)
    ensures LeadingNumber(t + " records") == n
    ensures var a := t + " records";
      a[LeadingDigits(a)..] == " records" && (LeadingDigits(a) > 1 ==> a[0] != '0')
  {
    assert (t + " records")[..|t|] == t;
    assert (t + " records")[|t|..] == " records";
    LeadingDigitsOfNumeral(t, " records");
    NatToStringRoundTrip(n);
  }

  /** What follows " of " in `d + " of " + t + " records"`. */
  lemma SuffixAfterOf(l: string, d: string, t: string)
    requires l == d + (" of " + t + " records")
    ensures l[|d| + 4..] == t + " records"
  {
    assert l[|d|..] == " of " + t + " records";
  }

  /** In a label `d + " of " + t + " records"`, the text
      after " of " reads back as the number `t` renders. */
  lemma TotalAfterOf(l: string, d: string, t: string, n: nat)
    requires l == d + (" of " + t + " records")
    requires t == NatToString(n)
    ensures |d| + 4 <= |l| && LeadingNumber(l[|d| + 4..]) == n
    ensures var a := l[|d| + 4..];
      a[LeadingDigits(a)..] == " records" && (LeadingDigits(a) > 1 ==> a[0] != '0')
  {
    SuffixAfterOf(l, d, t);
    NumeralBeforeRecords(t, n);
  }

  /** When some records are hidden, the total can be read back after " of ", written
      without leading zeros and followed by " records" and nothing else. */
  lemma CountLabelReadsBack(total: nat, shown: nat)
    requires shown != total
    ensures LeadingDigits(CountLabel(total, shown)) + 4 <= |CountLabel(total, shown)|
    ensures LeadingNumber(CountLabel(total, shown)[LeadingDigits(CountLabel(total, shown)) + 4..]) == total
    ensures var a := CountLabel(total, shown)[LeadingDigits(CountLabel(total, shown)) + 4..];
      a[LeadingDigits(a)..] == " records" && (LeadingDigits(a) > 1 ==> a[0] != '0')
  {
    var d := NatToString(shown);
    var t := NatToString(total);
    var rest := " of " + t + " records";
    LabelReadsBack(d, rest, shown, total);
    var l := CountLabel(total, shown);
    assert l == d + rest;
    TotalAfterOf(l, d, t, total);
    assert LeadingDigits(l) == |d|;
    assert l[LeadingDigits(l) + 4..] == l[|d| + 4..];
  }

  /** After a reload the label shows the store's row count and no "of". */
  lemma ReloadedLabel(v: ViewerState, t: Table)
    requires !v.updating
    ensures ViewerLabel(RefreshData(v, t, false)) == NatToString(|t.rows|) + " records"
  {
  }

  // ---------------------------------------------------------------------
  // The table's cells and in-place edits
  // ---------------------------------------------------------------------

  const Headers := ["ID", "Name", "Email", "Phone", "Company", "Position", "Notes", "Created", "Updated", "Created By"]

  /** Columns 1 to 6 hold the editable text fields; the others are read-only. */
  predicate Editable(column: nat) {
    1 <= column <= 6
  }

  /** A minus sign before the numeral of `n` reads back as `-n`. */
  lemma NegativeNumeral(digits: string, n: nat)
    requires digits == NatToString(n)
    ensures var r := "-" + digits;
      |r| >= 2 && r[0] == '-' && r[1..] == digits && All(r[1..], IsAsciiDigit) && DigitsValue(r[1..]) == n
  {
    NatToStringRoundTrip(n);
    assert ("-" + digits)[1..] == digits;
  }

  /** `str(entry.id)`: the decimal numeral, with a minus sign for a negative id. */
  function IdText(id: Option<int>): (r: string)
    ensures id.Some? && id.value >= 0 ==> All(r, IsAsciiDigit) && DigitsValue(r) == id.value
    ensures id.Some? && id.value < 0 ==>
      && |r| >= 2 && r[0] == '-' && All(r[1..], IsAsciiDigit) && DigitsValue(r[1..]) == -id.value
    ensures id.None? ==> r == "None"
  {
    match id
    case None => "None"
    case Some(i) =>
      if i < 0 then
        var digits := NatToString(-i);
        NegativeNumeral(digits, -i);
        "-" + digits
      else
        NatToStringRoundTrip(i);
        NatToString(i)
  }

  /** The text `populate_table` puts in a cell; `stamp` formats a timestamp
      (`strftime("%Y-%m-%d %H:%M")`). */
  function CellText(e: Entry, column: nat, stamp: int -> string): (r: string)
    requires column < |Headers|
    ensures column == 0 && e.id.Some? && e.id.value >= 0 ==> All(r, IsAsciiDigit) && DigitsValue(r) == e.id.value
    ensures column == 0 && e.id.None? ==> r == "None"
    ensures Editable(column) ==> SetColumn(e, column, r) == e
    ensures column == 0 && e.id.Some? && e.id.value < 0 ==>
      && |r| >= 2 && r[0] == '-' && All(r[1..], IsAsciiDigit) && DigitsValue(r[1..]) == -e.id.value
    ensures (column == 7 && e.createdAt.None?) || (column == 8 && e.updatedAt.None?) ==> r == ""
    ensures column == 7 && e.createdAt.Some? ==> r == stamp(e.createdAt.value)
    ensures column == 8 && e.updatedAt.Some? ==> r == stamp(e.updatedAt.value)
    ensures column == 9 ==> r == e.createdBy
  {
    match column
    case 0 => IdText(e.id)
    case 1 => e.name
    case 2 => e.email
    case 3 => e.phone
    case 4 => e.company
    case 5 => e.position
    case 6 => e.notes
    case 7 => if e.createdAt.Some? then stamp(e.createdAt.value) else ""
    case 8 => if e.updatedAt.Some? then stamp(e.updatedAt.value) else ""
    case _ => e.createdBy
  }

  /** `populate_table`: one row of ten cells per shown entry, row `k` showing the `k`-th
      shown entry. */
  function PopulateTable(v: ViewerState, stamp: int -> string): (r: seq<seq<string>>)
    requires ViewOk(v)
    ensures |r| == |Shown(v)| && forall k :: 0 <= k < |r| ==> |r[k]| == |Headers|
    ensures forall k, c :: 0 <= k < |r| && 0 <= c < |Headers| ==> r[k][c] == CellText(Shown(v)[k], c, stamp)
  {
    seq(|v.view|, k requires 0 <= k < |v.view| =>
      seq(|Headers|, c requires 0 <= c < |Headers| => CellText(v.current[v.view[k]], c, stamp)))
  }

  /** The field assignment of `on_cell_changed` for `column`; other columns change nothing. */
  function SetColumn(e: Entry, column: nat, text: string): (r: Entry)
    ensures !Editable(column) ==> r == e
    ensures r.id == e.id && r.createdAt == e.createdAt && r.updatedAt == e.updatedAt && r.createdBy == e.createdBy
    ensures r.name == (if column == 1 then text else e.name)
    ensures r.email == (if column == 2 then text else e.email)
    ensures r.phone == (if column == 3 then text else e.phone)
    ensures r.company == (if column == 4 then text else e.company)
    ensures r.position == (if column == 5 then text else e.position)
    ensures r.notes == (if column == 6 then text else e.notes)
  {
    match column
    case 1 => e.(name := text)
    case 2 => e.(email := text)
    case 3 => e.(phone := text)
    case 4 => e.(company := text)
    case 5 => e.(position := text)
    case 6 => e.(notes := text)
    case _ => e
  }

  /** An editable cell shows what was typed into it, and typing back what a cell
      shows changes nothing. */
  lemma CellEditRoundTrip(e: Entry, column: nat, text: string, stamp: int -> string)
    requires Editable(column)
    ensures CellText(SetColumn(e, column, text), column, stamp) == text
    ensures SetColumn(e, column, CellText(e, column, stamp)) == e
  {
  }

  /** An edit changes exactly the edited cell: every other cell of the row reads as before. */
  lemma EditChangesOneCell(e: Entry, column: nat, text: string, stamp: int -> string, c: nat)
    requires c < |Headers|
    ensures CellText(SetColumn(e, column, text), c, stamp)
            == (if c == column && Editable(c) then text else CellText(e, c, stamp))
  {
  }

  /** An in-place edit of the entry behind shown row `k` changes exactly one cell of the
      repopulated table: the edited one, which now reads the typed text. */
  lemma TableEditChangesOneCell(v: ViewerState, stamp: int -> string, k: nat, column: nat, text: string)
    requires ViewOk(v) && k < |v.view| && Editable(column)
    ensures var v' := v.(current := v.current[v.view[k] := SetColumn(v.current[v.view[k]], column, text)]);
      && ViewOk(v')
      && |PopulateTable(v', stamp)| == |PopulateTable(v, stamp)|
      && forall j, c :: 0 <= j < |v.view| && 0 <= c < |Headers| ==>
           PopulateTable(v', stamp)[j][c] == (if j == k && c == column then text else PopulateTable(v, stamp)[j][c])
  {
    var v' := v.(current := v.current[v.view[k] := SetColumn(v.current[v.view[k]], column, text)]);
    assert ViewOk(v');
    var before := PopulateTable(v, stamp);
    var after := PopulateTable(v', stamp);
    forall j, c | 0 <= j < |v.view| && 0 <= c < |Headers|
      ensures after[j][c] == (if j == k && c == column then text else before[j][c])
    {
      if j == k {
        EditChangesOneCell(v.current[v.view[k]], column, text, stamp, c);
      } else {
        assert v.view[j] != v.view[k] by {
          if j < k { assert v.view[j] < v.view[k]; } else { assert v.view[k] < v.view[j]; }
        }
        assert Shown(v')[j] == Shown(v)[j];
      }
    }
  }

  /** What an edit leaves behind: the viewer, the store, and whether `entry_updated` fired. */
  datatype EditOutcome = EditOutcome(viewer: ViewerState, table: Table, updatedSignal: bool)

  /** The call is ignored outright: an edit is in progress or the id column changed. */
  predicate EditIgnored(v: ViewerState, column: nat) {
    v.updating || column == 0
  }

  /** The call raises before reaching the store: no such shown row, or no such cell. */
  predicate EditRaises(v: ViewerState, row: nat, column: nat) {
    row >= |v.view| || column >= |Headers|
  }

  /** `on_cell_changed(row, column)` as written: the shared entry is changed in place
      and written to the store, and the store's answer only decides the signal. The
      calls to `refresh_data` meant to reload or revert run while the edit flag is
      still set, so they do nothing. */
  function OnCellChanged(v: ViewerState, t: Table, row: nat, column: nat, text: string, now: int, fault: bool)
    : (r: EditOutcome)
    requires ViewOk(v)
    ensures EditIgnored(v, column) ==> r == EditOutcome(v, t, false)
    ensures !EditIgnored(v, column) && EditRaises(v, row, column) ==> r == EditOutcome(v, t, false)
    ensures ViewOk(r.viewer) && r.viewer.view == v.view && |r.viewer.current| == |v.current|
    ensures !EditIgnored(v, column) ==> !r.viewer.updating
    ensures !EditIgnored(v, column) && !EditRaises(v, row, column) ==>
      var i := v.view[row];
      var e := SetColumn(v.current[i], column, text);
      && r.viewer.current[i] == e
      && (forall j :: 0 <= j < |v.current| && j != i ==> r.viewer.current[j] == v.current[j])
      && r.table == UpdateEntry(t, e, now, fault).0
      && (r.updatedSignal <==> !fault && e.id.Some? && e.id.value in Ids(t))
  {
    if EditIgnored(v, column) then EditOutcome(v, t, false)
    else
      var busy := v.(updating := true);
      if EditRaises(v, row, column) then
        EditOutcome(RefreshData(busy, t, false).(updating := false), t, false)
      else
        var i := v.view[row];
        var e := SetColumn(v.current[i], column, text);
        var edited := busy.(current := v.current[i := e]);
        var (t', ok) := UpdateEntry(t, e, now, fault);
        EditOutcome(RefreshData(edited, t', false).(updating := false), t', ok)
  }

  /** A failed write is not reverted: the store is unchanged but the viewer keeps the
      typed value, so a viewer that agreed with the store no longer does. */
  lemma FailedEditNotReverted(v: ViewerState, t: Table, row: nat, text: string, now: int)
    requires ViewOk(v) && !v.updating && row < |v.view|
    requires v.current[v.view[row]].name != text
    ensures var r := OnCellChanged(v, t, row, 1, text, now, true);
      && r.table == t && !r.updatedSignal
      && r.viewer.current[v.view[row]].name == text
      && (v.current == GetAllEntries(t, false) ==> r.viewer.current != GetAllEntries(r.table, false))
  {
    var r := OnCellChanged(v, t, row, 1, text, now, true);
    var i := v.view[row];
    assert r.viewer.current[i].name != v.current[i].name;
  }

  /** `on_cell_changed` as intended: the edit flag is cleared before the reload, so the
      viewer shows the store's state after every attempted edit, successful or not. */
  function OnCellChangedReloading(v: ViewerState, t: Table, row: nat, column: nat, text: string,
                                  now: int, fault: bool, readFault: bool): (r: EditOutcome)
    requires ViewOk(v)
    ensures EditIgnored(v, column) ==> r == EditOutcome(v, t, false)
    ensures !EditIgnored(v, column) && EditRaises(v, row, column) ==> r.table == t && !r.updatedSignal
    ensures ViewOk(r.viewer)
    ensures !EditIgnored(v, column) ==>
      && r.viewer.current == GetAllEntries(r.table, readFault)
      && Shown(r.viewer) == r.viewer.current
      && !r.viewer.updating
    ensures !EditIgnored(v, column) && !EditRaises(v, row, column) ==>
      var e := SetColumn(v.current[v.view[row]], column, text);
      && r.table == UpdateEntry(t, e, now, fault).0
      && (r.updatedSignal <==> !fault && e.id.Some? && e.id.value in Ids(t))
  {
    if EditIgnored(v, column) then EditOutcome(v, t, false)
    else if EditRaises(v, row, column) then
      EditOutcome(RefreshData(v.(updating := false), t, readFault), t, false)
    else
      var i := v.view[row];
      var e := SetColumn(v.current[i], column, text);
      var (t', ok) := UpdateEntry(t, e, now, fault);
      EditOutcome(RefreshData(v.(current := v.current[i := e], updating := false), t', readFault), t', ok)
  }

  /** With the reload, a viewer in step with the store stays in step after any edit. */
  lemma ReloadingEditStaysInStep(v: ViewerState, t: Table, row: nat, column: nat, text: string,
                                 now: int, fault: bool)
    requires ViewOk(v) && !v.updating && v.current == GetAllEntries(t, false)
    ensures var r := OnCellChangedReloading(v, t, row, column, text, now, fault, false);
      r.viewer.current == GetAllEntries(r.table, false)
  {
  }

  // ---------------------------------------------------------------------
  // Deleting the selected rows
  // ---------------------------------------------------------------------

  /** The ids that deleting the selected rows at positions `lo` and above asks the
      store to remove, leaving out the calls that fail. */
  ghost function DeletedIdsFrom(v: ViewerState, selected: set<nat>, faulty: set<nat>, lo: nat): set<int>
    requires ViewOk(v)
  {
    set r | r in selected && lo <= r < |v.view| && r !in faulty && v.current[v.view[r]].id.Some?
      :: v.current[v.view[r]].id.value
  }

  lemma DeletedIdsStep(v: ViewerState, selected: set<nat>, faulty: set<nat>, i: nat)
    requires ViewOk(v) && i < |v.view|
    ensures var id := v.current[v.view[i]].id;
      DeletedIdsFrom(v, selected, faulty, i) ==
        DeletedIdsFrom(v, selected, faulty, i + 1)
        + (if i in selected && i !in faulty && id.Some? then {id.value} else {})
  {
  }

  /** One visit of the deletion loop: row `i`, if selected, has its entry's id deleted. */
  function DeleteRow(v: ViewerState, t: Table, selected: set<nat>, faulty: set<nat>, i: nat): (r: (Table, bool))
    requires ViewOk(v) && Valid(t) && i < |v.view|
    ensures Valid(r.0) && r.0.lastId == t.lastId
    ensures forall row :: row in r.0.rows ==> row in t.rows
    ensures |t.rows| - |r.0.rows| == if r.1 then 1 else 0
    ensures var id := v.current[v.view[i]].id;
      Ids(r.0) == Ids(t) - (if i in selected && i !in faulty && id.Some? then {id.value} else {})
  {
    if i in selected then DeleteEntry(t, v.current[v.view[i]].id, i in faulty) else (t, false)
  }

  /** The deletion loop of `delete_selected`, once every selected row is known to be shown. */
  method DeleteRows(v: ViewerState, t: Table, selected: set<nat>, faulty: set<nat>)
    returns (t': Table, deleted: nat)
    requires ViewOk(v) && Valid(t)
    ensures Valid(t') && t'.lastId == t.lastId
    ensures forall row :: row in t'.rows ==> row in t.rows
    ensures deleted == |t.rows| - |t'.rows|
    ensures Ids(t') == Ids(t) - DeletedIdsFrom(v, selected, faulty, 0)
  {
    var i := |v.view|;
    t', deleted := t, 0;
    while i > 0
      invariant 0 <= i <= |v.view|
      invariant Valid(t') && t'.lastId == t.lastId
      invariant forall row :: row in t'.rows ==> row in t.rows
      invariant deleted == |t.rows| - |t'.rows|
      invariant Ids(t') == Ids(t) - DeletedIdsFrom(v, selected, faulty, i)
    {
      i := i - 1;
      DeletedIdsStep(v, selected, faulty, i);
      var (t2, ok) := DeleteRow(v, t', selected, faulty, i);
      t' := t2;
      if ok {
        deleted := deleted + 1;
      }
    }
  }

  /** `delete_selected`: visits the selected rows from the highest down and deletes each
      shown entry's id; `faulty` holds the rows whose `delete_entry` call fails. A selected
      row past the end raises before any deletion (it is the first visited) and the
      handler reloads. A reload and `entry_deleted` follow only if something was deleted. */
  method DeleteSelected(v: ViewerState, t: Table, selected: set<nat>, faulty: set<nat>, readFault: bool)
    returns (v': ViewerState, t': Table, deleted: nat, deletedSignal: bool)
    requires ViewOk(v) && Valid(t)
    ensures Valid(t') && t'.lastId == t.lastId
    ensures forall row :: row in t'.rows ==> row in t.rows
    ensures deleted == |t.rows| - |t'.rows|
    ensures deletedSignal <==> deleted > 0
    ensures (exists r :: r in selected && r >= |v.view|) ==>
      t' == t && deleted == 0 && v' == RefreshData(v, t, readFault)
    ensures (forall r :: r in selected ==> r < |v.view|) ==>
      Ids(t') == Ids(t) - DeletedIdsFrom(v, selected, faulty, 0)
    ensures (forall r :: r in selected ==> r < |v.view|) && deleted == 0 ==> v' == v
    ensures deleted > 0 ==> v' == RefreshData(v, t', readFault)
  {
    if exists r :: r in selected && r >= |v.view| {
      return RefreshData(v, t, readFault), t, 0, false;
    }
    t', deleted := DeleteRows(v, t, selected, faulty);
    deletedSignal := deleted > 0;
    if deletedSignal {
      v' := RefreshData(v, t', readFault);
    } else {
      v' := v;
    }
  }
}

=== FILE: windows.dfy ===
/** The refresh dispatch of `MainWindow` (`ui/main_window.py`) and `MainWindowLite`
    (`ui/main_window_lite.py`): which page is current, which button the sidebar
    highlights, and which pages reload their data on each event. A reload is reported
    as the set of pages whose `refresh_data` runs; the pages' own reload logic is in
    the `Viewer` and `Dashboard` modules. Status-bar messages are not modelled. */
module Windows {
  import opened Base
  import Sidebar
  import Sync

  /** The three pages of the stacked content area. */
  datatype View = DashboardView | EntryFormView | DataViewerView

  /** The pages that react to a store change made elsewhere. */
  const DataPages: set<View> := {DashboardView, DataViewerView}

  /** The main window: the current page, the sidebar, and the sync handler if one was built. */
  datatype Window = Window(current: View, sidebar: Sidebar.Sidebar, sync: Option<Sync.Monitor>)

  /** A handler's effect: the window afterwards and the pages it reloaded. */
  datatype Step = Step(window: Window, reloads: set<View>)

  /** `show_dashboard`: the dashboard becomes current and reloads; the sidebar is asked to
      highlight "dashboard", which no button answers to. */
  function ShowDashboard(w: Window): (r: Step)
    ensures r.window.current == DashboardView && r.reloads == {DashboardView}
    ensures !r.window.sidebar.entry.active && !r.window.sidebar.viewer.active
    ensures r.window.sync == w.sync
  {
    Step(w.(current := DashboardView, sidebar := Sidebar.SetActiveButton(w.sidebar, "dashboard")), {DashboardView})
  }

  /** `show_entry_form`: the form becomes current; nothing reloads. */
  function ShowEntryForm(w: Window): (r: Step)
    ensures r.window.current == EntryFormView && r.reloads == {}
    ensures r.window.sidebar.entry.active && !r.window.sidebar.viewer.active
    ensures r.window.sync == w.sync
  {
    Step(w.(current := EntryFormView, sidebar := Sidebar.SetActiveButton(w.sidebar, "entry")), {})
  }

  /** `show_data_viewer`: the viewer becomes current and reloads. */
  function ShowDataViewer(w: Window): (r: Step)
    ensures r.window.current == DataViewerView && r.reloads == {DataViewerView}
    ensures !r.window.sidebar.entry.active && r.window.sidebar.viewer.active
    ensures r.window.sync == w.sync
  {
    Step(w.(current := DataViewerView, sidebar := Sidebar.SetActiveButton(w.sidebar, "viewer")), {DataViewerView})
  }

  /** The page a sidebar request leads to. */
  function OnRequest(w: Window, req: Sidebar.Request): (r: Step)
    ensures req == Sidebar.EntryFormRequested ==> r.window.current == EntryFormView && r.reloads == {}
    ensures req == Sidebar.DataViewerRequested ==> r.window.current == DataViewerView && r.reloads == {DataViewerView}
    ensures r.window.sync == w.sync
  {
    match req
    case EntryFormRequested => ShowEntryForm(w)
    case DataViewerRequested => ShowDataViewer(w)
  }

  /** `on_database_changed`: reloads the current page if it shows data, and only it. */
  function OnDatabaseChanged(w: Window): (r: Step)
    ensures r.window == w
    ensures r.reloads == (if w.current in DataPages then {w.current} else {})
  {
    if w.current == DataViewerView then Step(w, {DataViewerView})
    else if w.current == DashboardView then Step(w, {DashboardView})
    else Step(w, {})
  }

  /** `on_entry_saved`: both data pages reload, whichever is current. */
  function OnEntrySaved(w: Window): (r: Step)
    ensures r.window == w && r.reloads == DataPages
  {
    Step(w, {DashboardView, DataViewerView})
  }

  /** `on_entry_updated`: only the dashboard reloads. */
  function OnEntryUpdated(w: Window): (r: Step)
    ensures r.window == w && r.reloads == {DashboardView}
  {
    Step(w, {DashboardView})
  }

  /** `on_entry_deleted`: only the dashboard reloads (the viewer reloaded itself). */
  function OnEntryDeleted(w: Window): (r: Step)
    ensures r.window == w && r.reloads == {DashboardView}
  {
    Step(w, {DashboardView})
  }

  /** `_setup_sync_handler`: builds the handler; if its construction raises, the window
      carries on with no handler. */
  function SetupSyncHandler(w: Window, dbPath: string, fileExists: bool, fault: Sync.SetupFault,
                            constructionFails: bool): (r: Window)
    ensures r.current == w.current && r.sidebar == w.sidebar
    ensures constructionFails ==> r.sync.None?
    ensures !constructionFails ==> r.sync.Some? && r.sync.value.emitted == 0
    ensures !constructionFails ==> (r.sync.value.monitoring <==> fault == Sync.NoFault)
  {
    if constructionFails then w.(sync := None)
    else w.(sync := Some(Sync.NewHandler(dbPath, fileExists, fault)))
  }

  /** `closeEvent`: stops monitoring when there is a handler. */
  function CloseEvent(w: Window): (r: Window)
    ensures w.sync.None? ==> r == w
    ensures w.sync.Some? ==> r.sync.Some? && !r.sync.value.monitoring && !Sync.TimerActive(r.sync.value)
    ensures w.sync.Some? ==> Sync.Watched(r.sync.value) == {}
    ensures r.current == w.current && r.sidebar == w.sidebar
  {
    if w.sync.Some? then w.(sync := Some(Sync.StopMonitoring(w.sync.value))) else w
  }

  /** The end of `MainWindow.__init__`, once the connections are made: `show_dashboard`,
      which reloads the dashboard, then the sync handler. The reloads the page
      constructors do before this are counted by `MainConstruct`. */
  function MainInitial(dbPath: string, fileExists: bool, fault: Sync.SetupFault, constructionFails: bool): (r: Step)
    ensures r.window.current == DashboardView && r.reloads == {DashboardView}
    ensures !r.window.sidebar.entry.active && !r.window.sidebar.viewer.active
    ensures r.window.sync.None? <==> constructionFails
  {
    var shown := ShowDashboard(Window(DashboardView, Sidebar.NewSidebar(), None));
    Step(SetupSyncHandler(shown.window, dbPath, fileExists, fault, constructionFails), shown.reloads)
  }

  /** The dashboard's own timer (60000 ms) reloads it every minute, whichever page is current. */
  const DashboardRefreshMs := 60000

  function OnDashboardTimer(w: Window): (r: Step)
    ensures r.window == w && r.reloads == {DashboardView}
  {
    Step(w, {DashboardView})
  }

  // ---------------------------------------------------------------------
  // Construction: the pages, the sidebar connections, the first page
  // ---------------------------------------------------------------------

  /** The signals `ModernSidebar` declares. */
  const SidebarSignals: set<string> := {"entry_form_requested", "data_viewer_requested"}

  /** The sidebar signals `setup_connections` connects in both windows, as written. */
  const NavigationAsWritten := ["dashboard_requested", "entry_form_requested", "data_viewer_requested"]

  /** The same connections without the one the sidebar does not declare. */
  const NavigationCorrected := ["entry_form_requested", "data_viewer_requested"]

  /** The first signal name the sidebar does not declare, if any: looking it up raises
      `AttributeError`. */
  function MissingSignal(names: seq<string>): (r: Option<string>)
    ensures r.None? <==> forall k :: 0 <= k < |names| ==> names[k] in SidebarSignals
    ensures r.Some? ==> r.value in names && r.value !in SidebarSignals
    decreases |names|
  {
    if names == [] then None
    else if names[0] !in SidebarSignals then Some(names[0])
    else
      assert forall k :: 1 <= k < |names| ==> names[k] == names[1..][k - 1];
      MissingSignal(names[1..])
  }

  /** `init_ui` builds the three pages; the dashboard's and the viewer's constructors each
      load their data once. */
  const PageConstructorReloads: multiset<View> := multiset{DashboardView, DataViewerView}

  /** A constructed window and every reload its construction did, counted. */
  datatype Startup = Startup(window: Window, reloads: multiset<View>)

  /** `MainWindow()`: the pages (each data page loading once), the sidebar connections,
      then `show_dashboard` and the sync handler. Raises if a connected signal does not exist. */
  function MainConstruct(navigation: seq<string>, dbPath: string, fileExists: bool, fault: Sync.SetupFault,
                         constructionFails: bool): (r: Result<Startup>)
    ensures r.Err? <==> MissingSignal(navigation).Some?
    ensures r.Ok? ==> r.value.window.current == DashboardView
    ensures r.Ok? ==> (r.value.window.sync.None? <==> constructionFails)
    ensures r.Ok? ==> r.value.reloads[DashboardView] == 2 && r.value.reloads[DataViewerView] == 1
    ensures r.Ok? ==> r.value.reloads[EntryFormView] == 0
  {
    match MissingSignal(navigation)
    case Some(name) => Err("AttributeError: 'ModernSidebar' object has no attribute '" + name + "'")
    case None =>
      var s := MainInitial(dbPath, fileExists, fault, constructionFails);
      Ok(Startup(s.window, PageConstructorReloads + multiset(s.reloads)))
  }

  /** As written, `MainWindow()` raises in `setup_connections`: no window is ever shown. */
  lemma MainWindowAsWrittenRaises(dbPath: string, fileExists: bool, fault: Sync.SetupFault, constructionFails: bool)
    ensures MainConstruct(NavigationAsWritten, dbPath, fileExists, fault, constructionFails).Err?
  {
    assert NavigationAsWritten[0] !in SidebarSignals;
  }

  /** Without the undeclared connection the window starts on the dashboard. */
  lemma MainWindowCorrectedStarts(dbPath: string, fileExists: bool, fault: Sync.SetupFault, constructionFails: bool)
    ensures MainConstruct(NavigationCorrected, dbPath, fileExists, fault, constructionFails).Ok?
    ensures MainConstruct(NavigationCorrected, dbPath, fileExists, fault, constructionFails).value.window
            == MainInitial(dbPath, fileExists, fault, constructionFails).window
  {
    assert forall k :: 0 <= k < |NavigationCorrected| ==> NavigationCorrected[k] in SidebarSignals;
  }

  /** The entry form is never reloaded by any handler. */
  lemma EntryFormNeverReloaded(w: Window)
    ensures EntryFormView !in OnDatabaseChanged(w).reloads
    ensures EntryFormView !in OnEntrySaved(w).reloads
    ensures EntryFormView !in OnEntryUpdated(w).reloads && EntryFormView !in OnEntryDeleted(w).reloads
    ensures EntryFormView !in ShowDashboard(w).reloads && EntryFormView !in ShowDataViewer(w).reloads
  {
  }

  /** A store change made elsewhere reloads no more than a save made here does. */
  lemma ExternalChangeReloadsLess(w: Window)
    ensures OnDatabaseChanged(w).reloads <= OnEntrySaved(w).reloads
    ensures |OnDatabaseChanged(w).reloads| <= 1
  {
  }

  /** After an edit or deletion in the viewer, the viewer is not among the reloaded pages. */
  lemma ViewerNotReloadedAfterEdit(w: Window)
    ensures DataViewerView !in OnEntryUpdated(w).reloads
    ensures DataViewerView !in OnEntryDeleted(w).reloads
  {
  }

  /** Closing twice is closing once. */
  lemma CloseIdempotent(w: Window)
    ensures CloseEvent(CloseEvent(w)) == CloseEvent(w)
  {
    if w.sync.Some? {
      Sync.StopIdempotent(w.sync.value);
    }
  }

  // ---------------------------------------------------------------------
  // The lite window: no sync handler, a manual refresh button
  // ---------------------------------------------------------------------

  datatype LiteWindow = LiteWindow(current: View, sidebar: Sidebar.Sidebar)

  datatype LiteStep = LiteStep(window: LiteWindow, reloads: set<View>)

  function LiteShowDashboard(w: LiteWindow): (r: LiteStep)
    ensures r.window.current == DashboardView && r.reloads == {DashboardView}
  {
    LiteStep(LiteWindow(DashboardView, Sidebar.SetActiveButton(w.sidebar, "dashboard")), {DashboardView})
  }

  function LiteShowEntryForm(w: LiteWindow): (r: LiteStep)
    ensures r.window.current == EntryFormView && r.reloads == {}
    ensures r.window.sidebar.entry.active
  {
    LiteStep(LiteWindow(EntryFormView, Sidebar.SetActiveButton(w.sidebar, "entry")), {})
  }

  function LiteShowDataViewer(w: LiteWindow): (r: LiteStep)
    ensures r.window.current == DataViewerView && r.reloads == {DataViewerView}
  {
    LiteStep(LiteWindow(DataViewerView, Sidebar.SetActiveButton(w.sidebar, "viewer")), {DataViewerView})
  }

  /** `manual_refresh`: reloads the viewer when it is current, and otherwise nothing. */
  function LiteManualRefresh(w: LiteWindow): (r: LiteStep)
    ensures r.window == w
    ensures r.reloads == (if w.current == DataViewerView then {DataViewerView} else {})
  {
    if w.current == DataViewerView then LiteStep(w, {DataViewerView}) else LiteStep(w, {})
  }

  function LiteOnEntrySaved(w: LiteWindow): (r: LiteStep)
    ensures r.window == w && r.reloads == DataPages
  {
    LiteStep(w, {DashboardView, DataViewerView})
  }

  function LiteOnEntryUpdated(w: LiteWindow): (r: LiteStep)
    ensures r.window == w && r.reloads == {DashboardView}
  {
    LiteStep(w, {DashboardView})
  }

  function LiteOnEntryDeleted(w: LiteWindow): (r: LiteStep)
    ensures r.window == w && r.reloads == {DashboardView}
  {
    LiteStep(w, {DashboardView})
  }

  /** The end of `MainWindowLite.__init__`: `show_entry_form`, which highlights the entry
      button and reloads nothing. The page constructors' reloads are counted by
      `LiteConstruct`. */
  function LiteInitial(): (r: LiteStep)
    ensures r.window.current == EntryFormView && r.reloads == {}
    ensures r.window.sidebar.entry.active && !r.window.sidebar.viewer.active
    ensures !r.window.sidebar.collapsed
  {
    LiteShowEntryForm(LiteWindow(DashboardView, Sidebar.NewSidebar()))
  }

  /** A constructed lite window and every reload its construction did, counted. */
  datatype LiteStartup = LiteStartup(window: LiteWindow, reloads: multiset<View>)

  /** `MainWindowLite()`: the pages (each data page loading once), the sidebar connections,
      then `show_entry_form`. Raises if a connected signal does not exist. */
  function LiteConstruct(navigation: seq<string>): (r: Result<LiteStartup>)
    ensures r.Err? <==> MissingSignal(navigation).Some?
    ensures r.Ok? ==> r.value.window.current == EntryFormView && r.value.window.sidebar.entry.active
    ensures r.Ok? ==> r.value.reloads[DashboardView] == 1 && r.value.reloads[DataViewerView] == 1
    ensures r.Ok? ==> r.value.reloads[EntryFormView] == 0
  {
    match MissingSignal(navigation)
    case Some(name) => Err("AttributeError: 'ModernSidebar' object has no attribute '" + name + "'")
    case None =>
      var s := LiteInitial();
      Ok(LiteStartup(s.window, PageConstructorReloads + multiset(s.reloads)))
  }

  /** As written, `MainWindowLite()` raises in `setup_connections` as well. */
  lemma LiteWindowAsWrittenRaises()
    ensures LiteConstruct(NavigationAsWritten).Err?
  {
    assert NavigationAsWritten[0] !in SidebarSignals;
  }

  /** Without the undeclared connection the lite window starts on the entry form. */
  lemma LiteWindowCorrectedStarts()
    ensures LiteConstruct(NavigationCorrected).Ok?
    ensures LiteConstruct(NavigationCorrected).value.window == LiteInitial().window
  {
    assert forall k :: 0 <= k < |NavigationCorrected| ==> NavigationCorrected[k] in SidebarSignals;
  }

  function AsMain(w: LiteWindow): Window {
    Window(w.current, w.sidebar, None)
  }

  /** The lite window dispatches navigation and the form and viewer signals exactly as the
      main window does; it differs only in having no sync handler. */
  lemma LiteAgreesWithMain(w: LiteWindow)
    ensures AsMain(LiteShowDashboard(w).window) == ShowDashboard(AsMain(w)).window
    ensures LiteShowDashboard(w).reloads == ShowDashboard(AsMain(w)).reloads
    ensures AsMain(LiteShowEntryForm(w).window) == ShowEntryForm(AsMain(w)).window
    ensures LiteShowEntryForm(w).reloads == ShowEntryForm(AsMain(w)).reloads
    ensures AsMain(LiteShowDataViewer(w).window) == ShowDataViewer(AsMain(w)).window
    ensures LiteShowDataViewer(w).reloads == ShowDataViewer(AsMain(w)).reloads
    ensures LiteOnEntrySaved(w).reloads == OnEntrySaved(AsMain(w)).reloads
    ensures LiteOnEntryUpdated(w).reloads == OnEntryUpdated(AsMain(w)).reloads
    ensures LiteOnEntryDeleted(w).reloads == OnEntryDeleted(AsMain(w)).reloads
  {
  }

  /** A manual refresh reloads what a store-change notice would, except on the dashboard. */
  lemma ManualRefreshVersusNotice(w: LiteWindow)
    ensures LiteManualRefresh(w).reloads == OnDatabaseChanged(AsMain(w)).reloads - {DashboardView}
  {
  }
}
